=== FILE: README.md ===
# Medical semantic search: a Dafny model of the search core

This project models the pure logic at the centre of the medical semantic
search service. It covers four parts:

- **The snippet sanitiser** `clean_snippet` (`app/engine.py`). It deletes
  MediaWiki-style headings (`={1,4}[^=\n]+={1,4}`), collapses whitespace runs
  to one blank and strips the ends. It then cuts the text to a character
  budget, ending at the last `". "` when that lies in the second half of the
  budget.
- **Top-k selection and result assembly** in `semantic_search`. It takes one
  score per corpus row, selects `top_k` rows by `np.argsort(scores)[::-1][:top_k]`,
  and builds records ranked 1, 2, … from the chunk metadata of the same row.
- **The query-embedding retry loop** in `semantic_search`. There are at most
  two attempts, with a fresh client and a 0.5 s pause before the second. The
  loop raises once both attempts fail.
- **The template filter** `highlight_keywords` (`app/main.py`). It wraps each
  case-insensitive literal match of each query word in `<mark>`…`</mark>`,
  one word after the other.

Modules:

- `Common`: `Option`, `Result`, `Min`.
- `Text`: the characters and words of Python's `str.split`, `str.strip` and `str.lower`.
- `Snippet`: `clean_snippet`.
- `Ranking`: argsort, top-k selection and records.
- `Retry`: the attempt loop as a trace of events.
- `Search`: `semantic_search` end to end.
- `Highlight`: `highlight_keywords`, plus a corrected variant (see Findings).

Outside inputs become parameters:

- The remote embedding call is an oracle: `oracle[i]` is what attempt `i + 1`
  returns or raises.
- Query normalisation and the dot products are a function `scoresOf` from the
  returned vector to one real score per row.
- Creating a client, sleeping and logging are events in the trace the retry
  loop returns.

Some behaviour of the code that is easy to miss:

- `clean_snippet` is not idempotent, in two ways.
  - The budget cut can end on a blank, which a second pass strips.
    `Snippet.CleanSnippetNotIdempotent` proves this for every pair of words of
    the right shape, for instance "ab cd" with a budget of 3.
  - Headings are deleted before whitespace is collapsed. So a newline can
    keep apart two markers that a second pass sees as one heading:
    "=a\nb=" cleans to "=a b=", and "=a b=" cleans to the empty string
    (`Snippet.CleanSnippetNotIdempotentOnHeading`).
- Ties in score follow the order of the reversed `np.argsort`, which is not
  stable. The model therefore leaves the order among equal scores open.
  `Ranking.TopOfAnyArgsort` holds for every order `np.argsort` may return.
- A zero-norm query vector is divided by zero, and the code carries on with
  NaN scores. That is floating-point work outside this model.
- When both attempts fail, the code raises a new exception carrying the
  attempt count and the text of the last error. The model records it as
  `RemoteServiceError(attempts, lastCause)`.

## Model

| member | source | states |
|---|---|---|
| Text.Split | app/main.py:22 | `str.split()` yields only non-empty words without whitespace |
| Text.SplitJoin | app/engine.py:63 | Splitting words joined by single blanks gives back exactly those words |
| Text.Lower | app/main.py:22 | `str.lower()` keeps the length and lower-cases each ASCII letter in place, leaving every other character alone |
| Text.Trim | app/engine.py:63 | `str.strip()` returns the stretch of the input between its leading and its trailing whitespace runs, and that stretch neither starts nor ends with whitespace |
| Text.JoinSplitNormal | app/engine.py:63 | A string with no leading, trailing, doubled or non-blank whitespace is exactly its words joined by single blanks |
| Text.SplitTrim | app/engine.py:63 | `str.split()` gives the same words for a string and for its `str.strip()`. |
| Snippet.HeadingAt | app/engine.py:61 | A heading match at the start is at least three characters long and fits in the text |
| Snippet.HeadingAtIsRegexMatch | app/engine.py:61 | The anchored scanner finds nothing exactly when no split into 1–4 markers, heading text and 1–4 markers matches. Otherwise its length is that of a matching split which a backtracking matcher prefers to every other |
| Snippet.StripHeadings | app/engine.py:61 | Heading removal never lengthens the text |
| Snippet.StripHeadingsAtFirstMatch | app/engine.py:61 | When the leftmost heading match starts at `i` and is `n` long, heading removal keeps the first `i` characters, deletes the match and continues after it |
| Snippet.StripHeadingsNoMarker | app/engine.py:61 | Text without `=` passes heading removal unchanged |
| Snippet.StripHeadingsKeepsUnmatched | app/engine.py:61 | Text in which no position starts a heading match passes heading removal unchanged |
| Snippet.Collapse | app/engine.py:63 | Collapsing whitespace yields only single blanks, is empty only for empty input, and turns a leading whitespace run into one blank |
| Snippet.SplitCollapse | app/engine.py:63 | Collapsing whitespace keeps the same words in the same order |
| Snippet.Normalize | app/engine.py:63 | Collapse-then-strip gives text in normal form with the same words as the input |
| Snippet.NormalizeIsJoinOfWords | app/engine.py:63 | Collapse-then-strip gives normal-form text equal to the input's words joined by single blanks |
| Snippet.NormalizeIdempotent | app/engine.py:63 | A second whitespace normalisation changes nothing |
| Snippet.NormalizeOfNormal | app/engine.py:63 | Normal-form text is a fixed point of whitespace normalisation |
| Snippet.RFindPeriodSpace | app/engine.py:70 | The result is -1 or the start of a `". "`, and no `". "` starts after it |
| Snippet.Truncate | app/engine.py:65-74 | The three return cases: text within the budget is returned whole. Otherwise, if the last `". "` of the budget-long prefix starts after half the budget, the result is that prefix cut just after its period, ending in `.`. Otherwise the result is the budget-long prefix. The result is always a prefix of the input |
| Snippet.CleanSnippet | app/engine.py:58-74 | The snippet has at most `max_chars` characters and is a prefix of the heading-free, normalised text. It has no leading whitespace, only single blanks, and equals that text, with no trailing whitespace, when the text fits the budget |
| Snippet.CleanSnippetNotIdempotent | app/engine.py:65-74 | For two words `u` and `v`, cleaning `u v` to `|u| + 1` characters gives `u ` and cleaning that again gives `u`: the sanitiser is not idempotent |
| Snippet.CleanSnippetNotIdempotentOnHeading | app/engine.py:61-63 | "=a\nb=" cleans to "=a b=", which cleans to the empty string: headings deleted before whitespace collapses make the sanitiser not idempotent |
| Ranking.InsertByScore | app/engine.py:123 | Insertion adds exactly the new row, keeps the ascending score order and creates no repetition |
| Ranking.ArgsortPrefix | app/engine.py:123 | The first `n` rows are listed once each, in ascending score order |
| Ranking.Argsort | app/engine.py:123 | The order is one `np.argsort` may return: a permutation of all row indices in ascending score order |
| Ranking.ReversedArgsortDescends | app/engine.py:123 | The reverse of any argsort lists every row once, by non-increasing score |
| Ranking.TopOfAnyArgsort | app/engine.py:123 | For every tie order, the first `min(k, N)` rows of the reversed argsort are distinct, non-increasing in score, and score at least as high as every row left out |
| Ranking.TopIndices | app/engine.py:123 | `argsort(scores)[::-1][:top_k]` is a top-k selection |
| Ranking.SnippetOf | app/engine.py:130 | A result's snippet is `clean_snippet` of the chunk text with the default `max_chars` of 450 (app/engine.py:58), so it is at most 450 characters long |
| Ranking.RecordFor | app/engine.py:128-138 | The record of row `idx` at rank `rank` takes title, chunk id, text and score from that same row |
| Ranking.BuildResults | app/engine.py:125-140 | One record per selected row, ranked 1, 2, …, each taking chunk id, title and score from its selected row. Records of rows selected by non-increasing score come out by non-increasing score |
| Ranking.RecordsOfTopK | app/engine.py:125-140 | The records built from any top-k selection form a correct result page: `min(k, N)` records ranked 1, 2, …, each taking title, snippet, score and chunk id from its selected row |
| Ranking.RankResults | app/engine.py:120-140 | Selection and assembly give a correct result page, and `top_k = 0` or an empty corpus gives no records |
| Retry.Attempts | app/engine.py:95-113 | The loop succeeds exactly when some remaining attempt returns. It then yields the vector of the first attempt that returns, all earlier ones having raised. Otherwise it raises with the attempt count and the last cause. It makes no more calls than attempts remain |
| Retry.EmbedWithRetry | app/engine.py:89-113 | The exact trace in each of the three cases. First success: one client, one call. First failure then success: a warning, one fresh client and one 0.5 s sleep before the second call. Two failures: two warnings, one error event, and an exception carrying 2 and the last cause |
| Retry.AtMostMaxRetriesCalls | app/engine.py:92-95 | At most two `feature_extraction` calls are made |
| Search.ResolveTopK | app/engine.py:85-86 | The caller's `top_k` is used when given; for `None` the configured `top_k` is used |
| Search.SemanticSearch | app/engine.py:77-140 | For returned vectors that can be scored against every row, the search raises exactly when both attempts raise. Otherwise it ranks by the scores of the first vector returned, with the caller's `top_k` or, when that is `None`, the configured one |
| Highlight.MatchCount | app/main.py:27-28 | The leftmost matches do not overlap: their count times the word length fits in the text |
| Highlight.MarkAll | app/main.py:27-28 | One pass adds exactly 13 characters per leftmost non-overlapping match |
| Highlight.MarkAllMarksOnlyWord | app/main.py:27-28 | One pass splits the text into pieces whose rendering is the output. Deleting the marks gives the text, and every marked piece is a case-insensitive literal match of the word. No unmarked piece covers a position of the text where a match starts, so the marked matches are the leftmost non-overlapping ones |
| Highlight.MarkPlainFromLeftmost | app/main.py:27-28 | In the coordinates of the whole text, no unmarked piece of the pass covers the start of a match of the word |
| Highlight.RightmostMarkIsNotLeftmost | app/main.py:27-28 | For "aaa" and "aa", marking the later of the two overlapping matches leaves a match start unmarked |
| Highlight.MarkAllLength | app/main.py:27-28 | One pass adds 13 characters per leftmost non-overlapping match, and changes nothing when it finds none |
| Highlight.MatchCountZeroIffAbsent | app/main.py:27-28 | A pass finds a match exactly when the word occurs somewhere in the text, ignoring case |
| Highlight.StripTagsMarkAll | app/main.py:27-28 | Deleting the inserted tags after one pass gives back the text, when the text had no `<` |
| Highlight.MarkWords | app/main.py:23-28 | The passes only insert whole tag pairs: the output is longer than the text by a multiple of 13 characters, possibly zero |
| Highlight.Highlight | app/main.py:19-29 | An empty query or an empty text is returned unchanged, and in every case the output is longer than the text by a multiple of 13 characters, possibly zero |
| Highlight.MarkWordsCompose | app/main.py:23-28 | The passes compose: the words of `a + b` act as the words of `a` followed by those of `b`, each on the previous pass's output |
| Highlight.MarkWordsAbsent | app/main.py:23-28 | Passes for words that occur nowhere leave the text unchanged |
| Highlight.HighlightAbsent | app/main.py:19-29 | A query none of whose words occurs in the text leaves the text unchanged |
| Highlight.HighlightBlankQuery | app/main.py:20-24 | An empty or whitespace-only query leaves the text unchanged |
| Highlight.HighlightOneWord | app/main.py:19-29 | A one-word query grows the text by 13 characters per match, and deleting the tags gives the text back |
| Highlight.HighlightIsLiteral | app/main.py:27 | Query words match literally: "a.b" leaves "axb" unmarked |
| Highlight.HighlightMarksInsideTags | app/main.py:24-28 | Query "x a" on text "x": "a" does not occur in the text, yet the second pass marks the "a" inside both tags the first pass inserted |
| Highlight.MarkAllTagExample | app/main.py:27-28 | A pass for "a" over `<mark>x</mark>` splices marks into both tags |
| Highlight.MarkPlainFromKeepsText | app/main.py:27-28 | The corrected pass over an unmarked stretch keeps its text exactly, split into unmarked and marked pieces |
| Highlight.RenderMarkPlainFrom | app/main.py:27-28 | On an unmarked stretch the corrected pass renders exactly as the code's pass |
| Highlight.MarkPieces | app/main.py:24-28 | One corrected pass keeps the text the pieces cover |
| Highlight.MarkWordsFixed | app/main.py:24-28 | Any number of corrected passes keep the text the pieces cover |
| Highlight.MarkPlainFromMarksMatches | app/main.py:27-28 | Every piece a corrected pass marks is a match of its word |
| Highlight.MarkPlainFromClearsWord | app/main.py:27-28 | A corrected pass leaves no match of its word in an unmarked piece |
| Highlight.MarkPiecesClearsWord | app/main.py:24-28 | After a corrected pass for a word, no unmarked piece contains that word |
| Highlight.MarkPiecesKeepsClear | app/main.py:24-28 | A corrected pass keeps unmarked pieces free of any word they were already free of |
| Highlight.MarkPiecesMarks | app/main.py:24-28 | After a corrected pass for one of the words, every marked piece is still a match of one of the words |
| Highlight.MarkPiecesKeepsMarks | app/main.py:24-28 | A corrected pass keeps every earlier mark, with the same text at the same offset of the covered text |
| Highlight.SplitMarkIsNotKept | app/main.py:24-28 | Turning the mark "ab" into an unmarked "a" and a mark "b" does not keep the earlier mark |
| Highlight.MarkWordsFixedClears | app/main.py:24-28 | After the corrected passes, no unmarked piece contains any of the words, and no two unmarked pieces are adjacent when none were before |
| Highlight.MarkPiecesAlternates | app/main.py:24-28 | A corrected pass keeps every unmarked stretch in one piece, and keeps the kind of the first and last pieces |
| Highlight.MarkWordsFixedAlternates | app/main.py:24-28 | The corrected passes keep every unmarked stretch in one piece |
| Highlight.UnmarkedAlternatingIsWhole | app/main.py:24-28 | Pieces with no two unmarked ones adjacent and no marked one are at most one piece, so they are clear of a word only when the whole text is |
| Highlight.MarkWordsFixedMarks | app/main.py:24-28 | After the corrected passes, every marked piece is a match of one of the words |
| Highlight.MarkWordsFixedKeepsMarks | app/main.py:24-28 | The corrected passes keep every mark already present, with the same text at the same offset |
| Highlight.MarkWordsFixedCompose | app/main.py:24-28 | The corrected passes for `a + b` are those for `a` followed by those for `b` |
| Highlight.MarkWordsFixedPrefixMarks | app/main.py:24-28 | Every mark the passes for the first `n` words make is still in place after the passes for all the words: earlier query words take precedence |
| Highlight.HighlightFixedMarksOnlyWords | app/main.py:19-29 | The corrected filter's output renders pieces that cover the text, with no two unmarked pieces adjacent. Every marked piece is a match of a query word, no unmarked stretch contains one, and every mark the first `n` query words make stays in place for each `n` |
| Highlight.HighlightFixedRoundTrip | app/main.py:19-29 | For any query, deleting the tags from the corrected filter's output gives back text that had no `<` |
| Highlight.HighlightFixedAgreesOnOneWord | app/main.py:19-29 | On one-word queries the corrected filter returns what the code returns |

## Left out

- `get_engine_data` (file I/O, JSON and `.npy` loading, the global cache) is not modelled. Its result is the parameter `Search.EngineData`. The code never checks that metadata and embeddings have the same number of rows; the model requires it.
- `create_client`, `InferenceClient.feature_extraction`, the `HF_TOKEN` variable and the 20 s client timeout are network calls. They become the outcome oracle and the `CreateClient` event.
- Query normalisation and the dot products are floating-point work. They are the parameter `scoresOf`, whose scores are exact reals. A zero-norm query gives NaN scores in the code; the model has no NaN.
- The order `np.argsort` gives rows of equal score is platform-dependent. The model specifies the selection for every such order and computes one of them by insertion.
- `top_k` and `max_chars` are natural numbers. Python's negative-slice behaviour is not modelled.
- `\s`, `str.strip`, `str.split`, `str.lower` and `re.IGNORECASE` are modelled on ASCII only: whitespace is the ASCII subset of `str.isspace`, and case folding maps `A`–`Z`.
- The text of the log messages and of the exception is not modelled. Events record the attempt numbers and the cause.
- The `index` route, the `asyncio` timeout, the Jinja templates and the HTMX branch are HTTP and concurrency glue.
- Retry.EmbedWithRetry: an exception from `create_client` itself is not modelled, because client creation is a foreign call.
- Search.SemanticSearch: states the ranking of the returned vector and the raised error, but not the trace. The trace is stated by `Retry.EmbedWithRetry`.
- Search.SemanticSearch: assumes every returned vector can be scored (`scoresOf` gives one score per row). The dot product at app/engine.py:120 lies outside the retry's `try`. So a returned vector whose width differs from the corpus rows raises an uncaught `ValueError` after a successful attempt, and that error path is not modelled.

## Findings

| source | as written | input that shows it | evidently intended | confidence | as-written member | corrected member |
|---|---|---|---|---|---|---|
| app/main.py:24-28 | Each query word is searched in the output of the previous words' passes, including the `<mark>`/`</mark>` tags those passes inserted | text "x", query "x a": the result is `<m<mark>a</mark>rk>x</m<mark>a</mark>rk>`, broken markup, though "a" does not occur in the text | Later words match only text that is neither inside an earlier mark nor inside a tag, so deleting the tags gives back the text for every query | not executed | Highlight.HighlightMarksInsideTags | Highlight.HighlightFixedRoundTrip |

=== FILE: common.dfy ===
/** Failure-carrying values shared by the other modules. */
module Common {

  /** An optional value: `None` plays the part of Python's `None`. */
  datatype Option<+T> = None | Some(value: T)

  /** The value of a computation that either returns or raises. */
  datatype Result<+T, +E> = Ok(value: T) | Err(error: E)

  function Min(a: int, b: int): (m: int)
    ensures m <= a && m <= b
    ensures m == a || m == b
  {
    if a <= b then a else b
  }
}

=== FILE: highlight.dfy ===
/**
  The template filter `highlight_keywords` (app/main.py): every query word,
  lower-cased, is searched case-insensitively and literally in the text, and
  each match is wrapped in `<mark>` … `</mark>`, one word after the other.
*/
module Highlight {
  import opened Common
  import opened Text

  const Open: string := "<mark>"
  const Close: string := "</mark>"

  /** Characters one match adds: `|Open| + |Close|`. */
  const TagOverhead: nat := 13

  /** The word matches `s` at position `i`, ignoring ASCII case, character for character. */
  predicate MatchesAt(s: string, i: nat, w: string)
  {
    i + |w| <= |s| && forall k :: 0 <= k < |w| ==> LowerChar(s[i + k]) == LowerChar(w[k])
  }

  ghost predicate Occurs(s: string, w: string)
  {
    exists i: nat :: MatchesAt(s, i, w)
  }

  predicate NoAngle(s: string)
  {
    forall k :: 0 <= k < |s| ==> s[k] != '<'
  }

  /** Matching at `d + j` in `s` is matching at `j` in `s[d..]`. */
  lemma MatchesShift(s: string, d: nat, j: nat, w: string)
    requires d <= |s|
    ensures MatchesAt(s[d..], j, w) <==> MatchesAt(s, d + j, w)
  {
    if d + j + |w| <= |s| {
      var t := s[d..];
      assert forall m :: j <= m < j + |w| ==> t[m] == s[d + m];
    }
  }

  lemma TakeDrop(s: string, n: nat)
    requires n <= |s|
    ensures s[..n] + s[n..] == s
  {
  }

  lemma MoveHead(acc: string, s: string)
    requires |s| > 0
    ensures (acc + [s[0]]) + s[1..] == acc + s
  {
    TakeDrop(s, 1);
    assert s[..1] == [s[0]];
  }

  /** A match needs room for the word and a matching first character. */
  lemma NoMatchAt(s: string, i: nat, w: string)
    requires |w| > 0
    requires i + |w| > |s| || LowerChar(s[i]) != LowerChar(w[0])
    ensures !MatchesAt(s, i, w)
  {
  }

  /** A match found in a longer text is still a match when text is appended. */
  lemma MatchesExtend(a: string, b: string, p: nat, w: string)
    requires MatchesAt(a, p, w)
    ensures MatchesAt(a + b, p, w)
  {
    assert forall k :: 0 <= k < |a| ==> (a + b)[k] == a[k];
  }

  /** `t` is one match of `w`: the word itself, up to ASCII case. */
  predicate IsMatch(t: string, w: string)
  {
    |t| == |w| && MatchesAt(t, 0, w)
  }

  /** No match of `w` starts anywhere in `t`. */
  predicate Clear(t: string, w: string)
  {
    forall p :: 0 <= p < |t| ==> !MatchesAt(t, p, w)
  }

  lemma ClearPrefix(a: string, b: string, w: string)
    requires Clear(a + b, w)
    ensures Clear(a, w)
  {
    forall p | 0 <= p < |a|
      ensures !MatchesAt(a, p, w)
    {
      if MatchesAt(a, p, w) {
        MatchesExtend(a, b, p, w);
      }
    }
  }

  lemma ClearSuffix(a: string, b: string, w: string)
    requires Clear(a + b, w)
    ensures Clear(b, w)
  {
    assert (a + b)[|a|..] == b;
    forall p | 0 <= p < |b|
      ensures !MatchesAt(b, p, w)
    {
      MatchesShift(a + b, |a|, p, w);
    }
  }

  // ---------------------------------------------------------------------------
  // The code as written
  // ---------------------------------------------------------------------------

  /** Leftmost non-overlapping matches of `w`, counted as `re.sub` finds them. */
  function MatchCount(s: string, w: string): (n: nat)
    requires |w| > 0
    ensures n * |w| <= |s|
    decreases |s|
  {
    if |s| == 0 then 0
    else if MatchesAt(s, 0, w) then 1 + MatchCount(s[|w|..], w)
    else MatchCount(s[1..], w)
  }

  /**
    One pass `re.compile(re.escape(w), re.IGNORECASE).sub(...)`: each leftmost
    non-overlapping match, in its original casing, wrapped in the tags; the
    output grows by 13 characters per match.
  */
  function MarkAll(s: string, w: string): (r: string)
    requires |w| > 0
    ensures |r| == |s| + TagOverhead * MatchCount(s, w)
    decreases |s|
  {
    if |s| == 0 then []
    else if MatchesAt(s, 0, w) then Open + s[..|w|] + Close + MarkAll(s[|w|..], w)
    else [s[0]] + MarkAll(s[1..], w)
  }

  /** The pass adds 13 characters per match, and a pass that finds nothing changes nothing. */
  lemma {:induction false} MarkAllLength(s: string, w: string)
    requires |w| > 0
    ensures |MarkAll(s, w)| == |s| + TagOverhead * MatchCount(s, w)
    ensures MatchCount(s, w) == 0 ==> MarkAll(s, w) == s
    decreases |s|
  {
    if |s| > 0 {
      if MatchesAt(s, 0, w) {
        MarkAllLength(s[|w|..], w);
      } else {
        MarkAllLength(s[1..], w);
        MoveHead([], s);
        assert [] + [s[0]] == [s[0]] && [] + s == s;
      }
    }
  }

  /** The pass finds a match exactly when the word occurs somewhere in the text. */
  lemma {:induction false} MatchCountZeroIffAbsent(s: string, w: string)
    requires |w| > 0
    ensures MatchCount(s, w) == 0 <==> !Occurs(s, w)
    decreases |s|
  {
    if |s| > 0 && !MatchesAt(s, 0, w) {
      MatchCountZeroIffAbsent(s[1..], w);
      if Occurs(s, w) {
        var i: nat :| MatchesAt(s, i, w);
        assert i > 0;
        MatchesShift(s, 1, i - 1, w);
        assert MatchesAt(s[1..], i - 1, w);
      }
      if Occurs(s[1..], w) {
        var i: nat :| MatchesAt(s[1..], i, w);
        MatchesShift(s, 1, i, w);
        assert MatchesAt(s, 1 + i, w);
      }
    } else if |s| > 0 {
      assert MatchesAt(s, 0, w);
    } else {
      assert forall i: nat :: !MatchesAt(s, i, w);
    }
  }

  /** Deletes every `<mark>` and `</mark>`, scanning left to right. */
  function StripTags(t: string): (r: string)
    decreases |t|
  {
    if |t| == 0 then []
    else if Open <= t then StripTags(t[|Open|..])
    else if Close <= t then StripTags(t[|Close|..])
    else [t[0]] + StripTags(t[1..])
  }

  /** A character other than `<` cannot start a tag and is kept. */
  lemma StripTagsCopy(t: string)
    requires |t| > 0 && t[0] != '<'
    ensures StripTags(t) == [t[0]] + StripTags(t[1..])
  {
    assert Open[0] == '<' && Close[0] == '<';
  }

  lemma {:induction false} StripTagsPlain(a: string, y: string)
    requires NoAngle(a)
    ensures StripTags(a + y) == a + StripTags(y)
    decreases |a|
  {
    if |a| > 0 {
      var t := a + y;
      StripTagsCopy(t);
      assert t[1..] == a[1..] + y;
      StripTagsPlain(a[1..], y);
    } else {
      assert a + y == y;
    }
  }

  lemma StripTagsOpen(y: string)
    ensures StripTags(Open + y) == StripTags(y)
  {
    assert (Open + y)[..|Open|] == Open;
    assert (Open + y)[|Open|..] == y;
  }

  lemma StripTagsClose(y: string)
    ensures StripTags(Close + y) == StripTags(y)
  {
    var t := Close + y;
    assert t[1] == '/' && Open[1] == 'm';
    assert !(Open <= t);
    assert t[..|Close|] == Close;
    assert t[|Close|..] == y;
  }

  /** Deleting the tags around a marked stretch leaves the stretch. */
  lemma StripTagsMarked(seg: string, rest: string)
    requires NoAngle(seg)
    ensures StripTags(Open + seg + Close + rest) == seg + StripTags(rest)
  {
    assert Open + seg + Close + rest == Open + (seg + (Close + rest));
    StripTagsOpen(seg + (Close + rest));
    StripTagsPlain(seg, Close + rest);
    StripTagsClose(rest);
  }

  /** Round trip of one pass: deleting the inserted tags gives back text that had none. */
  lemma {:induction false} StripTagsMarkAll(s: string, w: string)
    requires |w| > 0 && NoAngle(s)
    ensures StripTags(MarkAll(s, w)) == s
    decreases |s|
  {
    if |s| > 0 {
      if MatchesAt(s, 0, w) {
        var seg := s[..|w|];
        assert NoAngle(seg);
        StripTagsMarked(seg, MarkAll(s[|w|..], w));
        StripTagsMarkAll(s[|w|..], w);
        TakeDrop(s, |w|);
      } else {
        StripTagsPlain([s[0]], MarkAll(s[1..], w));
        StripTagsMarkAll(s[1..], w);
        MoveHead([], s);
        assert [] + [s[0]] == [s[0]] && [] + s == s;
      }
    }
  }

  /** The passes of the loop, each over the previous pass's output. */
  function MarkWords(s: string, words: seq<string>): (r: string)
    requires forall i :: 0 <= i < |words| ==> IsWord(words[i])
    ensures |s| <= |r| && (|r| - |s|) % TagOverhead == 0
    decreases |words|
  {
    if |words| == 0 then s
    else
      assert IsWord(words[0]);
      var marked := MarkAll(s, words[0]);
      var r := MarkWords(marked, words[1..]);
      TagPairsAdd(|s|, |marked|, |r|, MatchCount(s, words[0]));
      r
  }

  /** Growing by whole tag pairs twice is growing by whole tag pairs. */
  lemma TagPairsAdd(a: nat, b: nat, c: nat, m: nat)
    requires b == a + TagOverhead * m
    requires b <= c && (c - b) % TagOverhead == 0
    ensures a <= c && (c - a) % TagOverhead == 0
  {
    var q := (c - b) / TagOverhead;
    assert c - a == TagOverhead * (q + m);
  }

  /** `highlight_keywords(text, query)`. */
  function Highlight(text: string, query: string): (r: string)
    ensures |query| == 0 || |text| == 0 ==> r == text
    ensures |text| <= |r| && (|r| - |text|) % TagOverhead == 0
  {
    if |query| == 0 || |text| == 0 then text
    else MarkWords(text, Split(Lower(query)))
  }

  /** Later words run on the output of earlier ones: the passes compose. */
  lemma {:induction false} MarkWordsCompose(s: string, a: seq<string>, b: seq<string>)
    requires forall i :: 0 <= i < |a| ==> IsWord(a[i])
    requires forall i :: 0 <= i < |b| ==> IsWord(b[i])
    ensures MarkWords(s, a + b) == MarkWords(MarkWords(s, a), b)
    decreases |a|
  {
    if |a| == 0 {
      assert a + b == b;
    } else {
      assert (a + b)[0] == a[0];
      assert (a + b)[1..] == a[1..] + b;
      MarkWordsCompose(MarkAll(s, a[0]), a[1..], b);
    }
  }

  /** Passes for words that occur nowhere in the text leave it unchanged. */
  lemma {:induction false} MarkWordsAbsent(s: string, words: seq<string>)
    requires forall i :: 0 <= i < |words| ==> IsWord(words[i]) && !Occurs(s, words[i])
    ensures MarkWords(s, words) == s
    decreases |words|
  {
    if |words| > 0 {
      MatchCountZeroIffAbsent(s, words[0]);
      MarkAllLength(s, words[0]);
      MarkWordsAbsent(s, words[1..]);
    }
  }

  /** A query with no word that occurs in the text leaves the text unchanged. */
  lemma HighlightAbsent(text: string, query: string)
    requires forall i :: 0 <= i < |Split(Lower(query))| ==> !Occurs(text, Split(Lower(query))[i])
    ensures Highlight(text, query) == text
  {
    if |query| > 0 && |text| > 0 {
      MarkWordsAbsent(text, Split(Lower(query)));
    }
  }

  /** An empty or whitespace-only query has no words, so the text comes back unchanged. */
  lemma HighlightBlankQuery(text: string, query: string)
    requires forall k :: 0 <= k < |query| ==> IsSpace(query[k])
    ensures Highlight(text, query) == text
  {
    LowerKeepsSpaces(query);
    SplitAllSpace(Lower(query));
  }

  /**
    A one-word query is one pass: 13 more characters per match, and deleting
    the tags gives back text that had none.
  */
  lemma HighlightOneWord(text: string, query: string)
    requires |text| > 0 && |Split(Lower(query))| == 1
    ensures |Highlight(text, query)| == |text| + TagOverhead * MatchCount(text, Split(Lower(query))[0])
    ensures NoAngle(text) ==> StripTags(Highlight(text, query)) == text
  {
    var words := Split(Lower(query));
    var w := words[0];
    assert |query| > 0;
    assert IsWord(w) && words[1..] == [];
    assert MarkWords(text, words) == MarkWords(MarkAll(text, w), []);
    MarkAllLength(text, w);
    if NoAngle(text) {
      StripTagsMarkAll(text, w);
    }
  }

  /** Matching is literal: the `.` of the query is a full stop, not "any character". */
  lemma HighlightIsLiteral()
    ensures Highlight("axb", "a.b") == "axb"
  {
    var words := Split(Lower("a.b"));
    assert Lower("a.b") == "a.b";
    assert Split("a.b") == ["a.b"] by {
      SplitJoin(["a.b"]);
    }
    assert !MatchesAt("axb", 0, "a.b");
    assert MarkAll("axb", "a.b") == "axb";
  }

  /** The opening tag with the word "a" marked inside it: `<m<mark>a</mark>rk>`. */
  const OpenSpliced: string := "<m" + Open + "a" + Close + "rk>"

  /** The closing tag with the word "a" marked inside it: `</m<mark>a</mark>rk>`. */
  const CloseSpliced: string := "</m" + Open + "a" + Close + "rk>"

  /**
    The second word of "x a" is matched inside the tags the first word
    inserted, although the text holds no "a": the markup is corrupted.
  */
  lemma HighlightMarksInsideTags()
    ensures !Occurs("x", "a")
    ensures Highlight("x", "x a") == OpenSpliced + "x" + CloseSpliced
  {
    assert !Occurs("x", "a") by {
      assert LowerChar('x') == 'x' && LowerChar('a') == 'a';
      NoMatchAt("x", 0, "a");
      assert "x"[1..] == [];
      assert MatchCount("x", "a") == 0;
      MatchCountZeroIffAbsent("x", "a");
    }
    var words := ["x", "a"];
    assert Split("x a") == words by {
      assert Join(words) == "x a";
      assert IsWord("x") && IsWord("a");
      SplitJoin(words);
    }
    assert Lower("x a") == "x a";
    var marked := MarkAll("x", "x");
    assert marked == Open + "x" + Close by {
      assert MatchesAt("x", 0, "x");
      assert "x"[..1] == "x" && "x"[1..] == [];
      assert Open + "x" + Close + [] == Open + "x" + Close;
    }
    assert words[1..] == ["a"] && ["a"][1..] == [];
    assert MarkWords("x", words) == MarkWords(marked, ["a"]);
    assert MarkWords(marked, ["a"]) == MarkWords(MarkAll(marked, "a"), []);
    MarkAllTagExample();
  }

  lemma MarkAllTagExample()
    ensures MarkAll(Open + "x" + Close, "a") == OpenSpliced + "x" + CloseSpliced
  {
    var y := "x" + (Close + []);
    assert Open + "x" + Close == Open + y;
    assert MarkAll([], "a") == [];
    MarkAClose([]);
    MarkAllSkipPrefix("x", Close + [], "a");
    MarkAOpen(y);
    assert OpenSpliced + ("x" + (CloseSpliced + [])) == OpenSpliced + "x" + CloseSpliced;
  }

  /** The word "a" matches inside an opening tag. */
  lemma MarkAOpen(y: string)
    ensures MarkAll(Open + y, "a") == OpenSpliced + MarkAll(y, "a")
  {
    SpellOpen(y);
    MarkAllSkipPrefix("<m", "a" + ("rk>" + y), "a");
    MarkAllMatchPrefix("a", "rk>" + y);
    MarkAllSkipPrefix("rk>", y, "a");
    Regroup("<m", Open, "a", Close, "rk>", MarkAll(y, "a"));
  }

  /** The word "a" matches inside a closing tag. */
  lemma MarkAClose(y: string)
    ensures MarkAll(Close + y, "a") == CloseSpliced + MarkAll(y, "a")
  {
    SpellClose(y);
    MarkAllSkipPrefix("</m", "a" + ("rk>" + y), "a");
    MarkAllMatchPrefix("a", "rk>" + y);
    MarkAllSkipPrefix("rk>", y, "a");
    Regroup("</m", Open, "a", Close, "rk>", MarkAll(y, "a"));
  }

  lemma SpellOpen(y: string)
    ensures Open + y == "<m" + ("a" + ("rk>" + y))
  {
    assert Open == "<m" + ("a" + "rk>");
  }

  lemma SpellClose(y: string)
    ensures Close + y == "</m" + ("a" + ("rk>" + y))
  {
    assert Close == "</m" + ("a" + "rk>");
  }

  /** Text in which the word cannot start is copied by the pass. */
  lemma {:induction false} MarkAllSkipPrefix(a: string, y: string, w: string)
    requires |w| > 0
    requires forall k :: 0 <= k < |a| ==> LowerChar(a[k]) != LowerChar(w[0])
    ensures MarkAll(a + y, w) == a + MarkAll(y, w)
    decreases |a|
  {
    if |a| == 0 {
      assert a + y == y;
    } else {
      NoMatchAt(a + y, 0, w);
      MarkAllKeepFirst(a + y, w);
      assert (a + y)[1..] == a[1..] + y;
      MarkAllSkipPrefix(a[1..], y, w);
      ConsRest(a, MarkAll(y, w));
    }
  }

  /** Without a match at the start, the pass copies the first character. */
  lemma MarkAllKeepFirst(s: string, w: string)
    requires |w| > 0 && |s| > 0 && !MatchesAt(s, 0, w)
    ensures MarkAll(s, w) == [s[0]] + MarkAll(s[1..], w)
  {
  }

  /** With a match at the start, the pass wraps it and continues after it. */
  lemma MarkAllMarkFirst(s: string, w: string)
    requires |w| > 0 && MatchesAt(s, 0, w)
    ensures MarkAll(s, w) == Open + s[..|w|] + Close + MarkAll(s[|w|..], w)
  {
  }

  lemma ConsRest(a: string, r: string)
    requires |a| > 0
    ensures [a[0]] + (a[1..] + r) == a + r
  {
    assert [a[0]] + a[1..] == a;
  }

  /** Text that starts with the word is marked there. */
  lemma MarkAllMatchPrefix(w: string, y: string)
    requires |w| > 0
    ensures MarkAll(w + y, w) == Open + w + Close + MarkAll(y, w)
  {
    var s := w + y;
    assert MatchesAt(s, 0, w);
    assert s[..|w|] == w && s[|w|..] == y;
  }

  lemma Regroup(p: string, o: string, a: string, c: string, r: string, y: string)
    ensures p + (o + a + c + (r + y)) == p + o + a + c + r + y
  {
  }

  // ---------------------------------------------------------------------------
  // Corrected: later words only search text no earlier word has marked
  // ---------------------------------------------------------------------------

  /** Text split into stretches still open to matching and stretches already marked. */
  datatype Piece = Plain(text: string) | Marked(text: string)

  function Render(ps: seq<Piece>): (r: string)
  {
    if |ps| == 0 then []
    else
      (match ps[0]
       case Plain(t) => t
       case Marked(t) => Open + t + Close)
      + Render(ps[1..])
  }

  /** The text the pieces cover, without markup. */
  function Flatten(ps: seq<Piece>): (r: string)
  {
    if |ps| == 0 then [] else ps[0].text + Flatten(ps[1..])
  }

  lemma NoAngleSplit(a: string, b: string)
    requires NoAngle(a + b)
    ensures NoAngle(a) && NoAngle(b)
  {
    assert forall k :: 0 <= k < |a| ==> a[k] == (a + b)[k];
    assert forall k :: 0 <= k < |b| ==> b[k] == (a + b)[|a| + k];
  }

  lemma {:induction false} RenderAppend(a: seq<Piece>, b: seq<Piece>)
    ensures Render(a + b) == Render(a) + Render(b)
    decreases |a|
  {
    if |a| == 0 {
      assert a + b == b;
    } else {
      assert (a + b)[0] == a[0];
      assert (a + b)[1..] == a[1..] + b;
      RenderAppend(a[1..], b);
    }
  }

  lemma {:induction false} FlattenAppend(a: seq<Piece>, b: seq<Piece>)
    ensures Flatten(a + b) == Flatten(a) + Flatten(b)
    decreases |a|
  {
    if |a| == 0 {
      assert a + b == b;
    } else {
      assert (a + b)[0] == a[0];
      assert (a + b)[1..] == a[1..] + b;
      FlattenAppend(a[1..], b);
    }
  }

  /** No two unmarked pieces are adjacent: every unmarked stretch is one piece. */
  predicate Alternating(ps: seq<Piece>)
  {
    forall i :: 0 < i < |ps| ==> !(ps[i - 1].Plain? && ps[i].Plain?)
  }

  /**
    Read left to right from offset `o` of the whole text `t`, no unmarked
    piece covers a position of `t` where a match of `w` starts.
  */
  predicate ClearFrom(ps: seq<Piece>, t: string, o: nat, w: string)
    decreases |ps|
  {
    |ps| == 0 ||
    ((ps[0].Plain? ==> forall p :: o <= p < o + |ps[0].text| ==> !MatchesAt(t, p, w))
     && ClearFrom(ps[1..], t, o + |ps[0].text|, w))
  }

  lemma AlternatingAppend(a: seq<Piece>, b: seq<Piece>)
    requires Alternating(a) && Alternating(b)
    requires |a| > 0 && |b| > 0 ==> !(a[|a| - 1].Plain? && b[0].Plain?)
    ensures Alternating(a + b)
  {
    forall i | 0 < i < |a + b|
      ensures !((a + b)[i - 1].Plain? && (a + b)[i].Plain?)
    {
      if i < |a| {
        assert (a + b)[i - 1] == a[i - 1] && (a + b)[i] == a[i];
      } else if i == |a| {
        assert (a + b)[i - 1] == a[|a| - 1] && (a + b)[i] == b[0];
      } else {
        assert (a + b)[i - 1] == b[i - 1 - |a|] && (a + b)[i] == b[i - |a|];
      }
    }
  }

  /** Every unmarked piece is clear of `w`. */
  predicate PlainClear(ps: seq<Piece>, w: string)
  {
    forall i :: 0 <= i < |ps| && ps[i].Plain? ==> Clear(ps[i].text, w)
  }

  /** Every marked piece is a match of one of `words`. */
  predicate MarkedBy(ps: seq<Piece>, words: seq<string>)
  {
    forall i :: 0 <= i < |ps| && ps[i].Marked? ==> exists j :: 0 <= j < |words| && IsMatch(ps[i].text, words[j])
  }

  lemma PlainClearAppend(a: seq<Piece>, b: seq<Piece>, w: string)
    requires PlainClear(a, w) && PlainClear(b, w)
    ensures PlainClear(a + b, w)
  {
    forall i | 0 <= i < |a + b| && (a + b)[i].Plain?
      ensures Clear((a + b)[i].text, w)
    {
      if i >= |a| {
        assert (a + b)[i] == b[i - |a|];
      }
    }
  }

  lemma MarkedByAppend(a: seq<Piece>, b: seq<Piece>, words: seq<string>)
    requires MarkedBy(a, words) && MarkedBy(b, words)
    ensures MarkedBy(a + b, words)
  {
    forall i | 0 <= i < |a + b| && (a + b)[i].Marked?
      ensures exists j :: 0 <= j < |words| && IsMatch((a + b)[i].text, words[j])
    {
      if i >= |a| {
        assert (a + b)[i] == b[i - |a|];
      }
    }
  }

  /**
    One word's pass over one unmarked stretch, as pieces: `acc` is the
    unmarked text already passed over, and each match closes the stretch
    before it and becomes a marked piece of its own.
  */
  function MarkPlainFrom(acc: string, s: string, w: string): (ps: seq<Piece>)
    requires |w| > 0
    decreases |s|
  {
    if |s| == 0 then [Plain(acc)]
    else if MatchesAt(s, 0, w) then [Plain(acc), Marked(s[..|w|])] + MarkPlainFrom([], s[|w|..], w)
    else MarkPlainFrom(acc + [s[0]], s[1..], w)
  }

  function MarkPlain(s: string, w: string): (ps: seq<Piece>)
    requires |w| > 0
  {
    MarkPlainFrom([], s, w)
  }

  lemma FlattenPair(a: string, m: string)
    ensures Flatten([Plain(a), Marked(m)]) == a + m
  {
    var ps := [Plain(a), Marked(m)];
    assert ps[1..] == [Marked(m)];
    assert [Marked(m)][1..] == [];
    assert Flatten([Marked(m)]) == m + [];
  }

  lemma FlattenMatchStep(acc: string, m: string, rest: seq<Piece>, tail: string)
    requires Flatten(rest) == tail
    ensures Flatten([Plain(acc), Marked(m)] + rest) == acc + (m + tail)
  {
    FlattenAppend([Plain(acc), Marked(m)], rest);
    FlattenPair(acc, m);
  }

  /** The pieces cover exactly the text passed over and the text still to search, and carry no `<` when neither does. */
  lemma {:induction false} MarkPlainFromKeepsText(acc: string, s: string, w: string)
    requires |w| > 0
    ensures Flatten(MarkPlainFrom(acc, s, w)) == acc + s
    decreases |s|
  {
    if |s| == 0 {
      assert [Plain(acc)][1..] == [];
      assert Flatten([Plain(acc)]) == acc + [];
      assert acc + s == acc + [];
    } else if MatchesAt(s, 0, w) {
      var rest := MarkPlainFrom([], s[|w|..], w);
      MarkPlainFromKeepsText([], s[|w|..], w);
      assert [] + s[|w|..] == s[|w|..];
      FlattenMatchStep(acc, s[..|w|], rest, s[|w|..]);
      TakeDrop(s, |w|);
    } else {
      MarkPlainFromKeepsText(acc + [s[0]], s[1..], w);
      MoveHead(acc, s);
    }
  }

  lemma RenderPair(a: string, m: string)
    ensures Render([Plain(a), Marked(m)]) == a + (Open + m + Close)
  {
    var ps := [Plain(a), Marked(m)];
    assert ps[1..] == [Marked(m)];
    assert [Marked(m)][1..] == [];
    var tagged := Open + m + Close;
    assert Render([Marked(m)]) == tagged + Render([]);
    assert tagged + [] == tagged;
    assert Render(ps) == a + Render(ps[1..]);
  }

  lemma RenderMatchStep(acc: string, m: string, rest: seq<Piece>, tail: string)
    requires Render(rest) == tail
    ensures Render([Plain(acc), Marked(m)] + rest) == acc + (Open + m + Close + tail)
  {
    RenderAppend([Plain(acc), Marked(m)], rest);
    RenderPair(acc, m);
  }

  /** On a single stretch the corrected pass renders exactly as the as-written one. */
  lemma {:induction false} RenderMarkPlainFrom(acc: string, s: string, w: string)
    requires |w| > 0
    ensures Render(MarkPlainFrom(acc, s, w)) == acc + MarkAll(s, w)
    decreases |s|
  {
    if |s| == 0 {
      assert [Plain(acc)][1..] == [];
      assert Render([Plain(acc)]) == acc + [];
    } else if MatchesAt(s, 0, w) {
      var m := s[..|w|];
      var rest := MarkPlainFrom([], s[|w|..], w);
      RenderMarkPlainFrom([], s[|w|..], w);
      assert [] + MarkAll(s[|w|..], w) == MarkAll(s[|w|..], w);
      RenderMatchStep(acc, m, rest, MarkAll(s[|w|..], w));
      MarkAllMarkFirst(s, w);
    } else {
      RenderMarkPlainFrom(acc + [s[0]], s[1..], w);
      MarkAllKeepFirst(s, w);
      assert (acc + [s[0]]) + MarkAll(s[1..], w) == acc + ([s[0]] + MarkAll(s[1..], w));
    }
  }

  /** One word's pass over one piece: an unmarked stretch is searched, a marked one left alone. */
  function MarkPiece(p: Piece, w: string): (qs: seq<Piece>)
    requires |w| > 0
  {
    match p
    case Plain(t) => MarkPlain(t, w)
    case Marked(_) => [p]
  }

  lemma MarkPieceKeepsText(p: Piece, w: string)
    requires |w| > 0
    ensures Flatten(MarkPiece(p, w)) == p.text
  {
    match p
    case Plain(t) =>
      MarkPlainFromKeepsText([], t, w);
      assert [] + t == t;
    case Marked(_) =>
      assert [p][1..] == [];
      assert Flatten([p]) == p.text + [];
  }

  /** One word's pass over all pieces: unmarked stretches are searched, marked ones left alone. */
  function MarkPieces(ps: seq<Piece>, w: string): (qs: seq<Piece>)
    requires |w| > 0
    ensures Flatten(qs) == Flatten(ps)
  {
    if |ps| == 0 then []
    else
      var head := MarkPiece(ps[0], w);
      MarkPieceKeepsText(ps[0], w);
      var rest := MarkPieces(ps[1..], w);
      FlattenAppend(head, rest);
      head + rest
  }

  function MarkWordsFixed(ps: seq<Piece>, words: seq<string>): (qs: seq<Piece>)
    requires forall i :: 0 <= i < |words| ==> IsWord(words[i])
    ensures Flatten(qs) == Flatten(ps)
    decreases |words|
  {
    if |words| == 0 then ps
    else
      assert IsWord(words[0]);
      MarkWordsFixed(MarkPieces(ps, words[0]), words[1..])
  }

  /** `highlight_keywords` with later words kept out of earlier marks and tags. */
  function HighlightFixed(text: string, query: string): (r: string)
  {
    if |query| == 0 || |text| == 0 then text
    else Render(MarkWordsFixed([Plain(text)], Split(Lower(query))))
  }

  lemma {:induction false} StripTagsRender(ps: seq<Piece>)
    requires NoAngle(Flatten(ps))
    ensures StripTags(Render(ps)) == Flatten(ps)
    decreases |ps|
  {
    if |ps| > 0 {
      var rest := Render(ps[1..]);
      NoAngleSplit(ps[0].text, Flatten(ps[1..]));
      StripTagsRender(ps[1..]);
      match ps[0]
      case Plain(t) =>
        StripTagsPlain(t, rest);
      case Marked(t) =>
        StripTagsMarked(t, rest);
    }
  }

  /**
    The corrected filter keeps the markup sound for any number of words:
    deleting the tags gives back text that had none.
  */
  lemma HighlightFixedRoundTrip(text: string, query: string)
    requires NoAngle(text)
    ensures StripTags(HighlightFixed(text, query)) == text
  {
    if |query| > 0 && |text| > 0 {
      var start := [Plain(text)];
      assert start[1..] == [];
      assert Flatten(start) == text + [];
      assert text + [] == text;
      var ps := MarkWordsFixed(start, Split(Lower(query)));
      assert HighlightFixed(text, query) == Render(ps);
      StripTagsRender(ps);
    } else {
      StripTagsPlain(text, []);
      assert text + [] == text;
    }
  }

  /** For a one-word query the corrected filter returns what the code returns. */
  lemma HighlightFixedAgreesOnOneWord(text: string, query: string)
    requires |Split(Lower(query))| == 1
    ensures HighlightFixed(text, query) == Highlight(text, query)
  {
    if |query| > 0 && |text| > 0 {
      var words := Split(Lower(query));
      var w := words[0];
      assert words[1..] == [];
      assert IsWord(w);
      var start := [Plain(text)];
      var ps := MarkPlain(text, w);
      assert start[1..] == [];
      assert MarkPieces(start, w) == ps + MarkPieces([], w);
      assert ps + [] == ps;
      assert MarkWordsFixed(start, words) == MarkWordsFixed(ps, []);
      assert MarkWords(text, words) == MarkWords(MarkAll(text, w), []);
      RenderMarkPlainFrom([], text, w);
      assert [] + MarkAll(text, w) == MarkAll(text, w);
    }
  }

  // ---------------------------------------------------------------------------
  // What the passes mark, and what they leave unmarked
  // ---------------------------------------------------------------------------

  /** Every marked piece of a pass for `w` is a match of `w`. */
  lemma {:induction false} MarkPlainFromMarksMatches(acc: string, s: string, w: string, words: seq<string>)
    requires |w| > 0 && w in words
    ensures MarkedBy(MarkPlainFrom(acc, s, w), words)
    decreases |s|
  {
    if |s| > 0 {
      if MatchesAt(s, 0, w) {
        var m := s[..|w|];
        assert forall k :: 0 <= k < |w| ==> m[k] == s[k];
        var j :| 0 <= j < |words| && words[j] == w;
        assert IsMatch(m, words[j]);
        var head := [Plain(acc), Marked(m)];
        assert MarkedBy(head, words) by {
          assert head[1].text == m;
        }
        MarkPlainFromMarksMatches([], s[|w|..], w, words);
        MarkedByAppend(head, MarkPlainFrom([], s[|w|..], w), words);
      } else {
        MarkPlainFromMarksMatches(acc + [s[0]], s[1..], w, words);
      }
    }
  }

  /**
    A pass for `w` leaves no match of `w` unmarked, given that none starts
    inside the text `acc` already passed over.
  */
  lemma {:induction false} MarkPlainFromClearsWord(acc: string, s: string, w: string)
    requires |w| > 0
    requires forall p :: 0 <= p < |acc| ==> !MatchesAt(acc + s, p, w)
    ensures PlainClear(MarkPlainFrom(acc, s, w), w)
    decreases |s|
  {
    if |s| == 0 {
      assert acc + s == acc;
    } else if MatchesAt(s, 0, w) {
      forall p | 0 <= p < |acc|
        ensures !MatchesAt(acc, p, w)
      {
        if MatchesAt(acc, p, w) {
          MatchesExtend(acc, s, p, w);
        }
      }
      var head := [Plain(acc), Marked(s[..|w|])];
      assert PlainClear(head, w);
      MarkPlainFromClearsWord([], s[|w|..], w);
      PlainClearAppend(head, MarkPlainFrom([], s[|w|..], w), w);
    } else {
      var next := acc + [s[0]];
      MoveHead(acc, s);
      forall p | 0 <= p < |next|
        ensures !MatchesAt(next + s[1..], p, w)
      {
        if p == |acc| {
          assert (acc + s)[|acc|..] == s;
          MatchesShift(acc + s, |acc|, 0, w);
        }
      }
      MarkPlainFromClearsWord(next, s[1..], w);
    }
  }

  /** A pass leaves unmarked only stretches of its input, so a word absent from the input stays absent from them. */
  lemma {:induction false} MarkPlainFromKeepsClear(acc: string, s: string, w: string, v: string)
    requires |w| > 0 && Clear(acc + s, v)
    ensures PlainClear(MarkPlainFrom(acc, s, w), v)
    decreases |s|
  {
    if |s| == 0 {
      assert acc + s == acc;
    } else if MatchesAt(s, 0, w) {
      var tail := s[|w|..];
      ClearPrefix(acc, s, v);
      ClearSuffix(acc, s, v);
      TakeDrop(s, |w|);
      ClearSuffix(s[..|w|], tail, v);
      assert [] + tail == tail;
      var head := [Plain(acc), Marked(s[..|w|])];
      assert PlainClear(head, v);
      MarkPlainFromKeepsClear([], tail, w, v);
      PlainClearAppend(head, MarkPlainFrom([], tail, w), v);
    } else {
      MoveHead(acc, s);
      MarkPlainFromKeepsClear(acc + [s[0]], s[1..], w, v);
    }
  }

  /** A stretch clear up to a match, the match, then pieces clear from after it: clear from the stretch's start. */
  lemma MarkPairClearFrom(t: string, o: nat, acc: string, m: string, rest: seq<Piece>, w: string)
    requires forall p :: o <= p < o + |acc| ==> !MatchesAt(t, p, w)
    requires ClearFrom(rest, t, o + |acc| + |m|, w)
    ensures ClearFrom([Plain(acc), Marked(m)] + rest, t, o, w)
  {
    var ps := [Plain(acc), Marked(m)] + rest;
    assert ps[0] == Plain(acc) && ps[1..][0] == Marked(m);
    assert ps[1..][1..] == rest;
  }

  /**
    The pass marks the leftmost matches: read in the coordinates of the whole
    text `t`, no unmarked piece covers the start of a match, given that none
    starts inside the text `acc` already passed over.
  */
  lemma {:induction false} MarkPlainFromLeftmost(t: string, o: nat, acc: string, s: string, w: string)
    requires |w| > 0 && o <= |t| && t[o..] == acc + s
    requires forall p :: o <= p < o + |acc| ==> !MatchesAt(t, p, w)
    ensures ClearFrom(MarkPlainFrom(acc, s, w), t, o, w)
    decreases |s|, 1
  {
    if |s| == 0 {
      assert [Plain(acc)][1..] == [];
    } else if MatchesAt(s, 0, w) {
      LeftmostAtMatch(t, o, acc, s, w);
    } else {
      LeftmostPastMiss(t, o, acc, s, w);
    }
  }

  /** The step of `MarkPlainFromLeftmost` at a match: the stretch before it closes, and the scan restarts after it. */
  lemma {:induction false} LeftmostAtMatch(t: string, o: nat, acc: string, s: string, w: string)
    requires |w| > 0 && o <= |t| && t[o..] == acc + s && MatchesAt(s, 0, w)
    requires forall p :: o <= p < o + |acc| ==> !MatchesAt(t, p, w)
    ensures ClearFrom(MarkPlainFrom(acc, s, w), t, o, w)
    decreases |s|, 0
  {
    var tail := s[|w|..];
    DropInside(t, o, acc, s, |w|);
    assert [] + tail == tail;
    MarkPlainFromLeftmost(t, o + |acc| + |w|, [], tail, w);
    MarkPairClearFrom(t, o, acc, s[..|w|], MarkPlainFrom([], tail, w), w);
  }

  /** The step of `MarkPlainFromLeftmost` past a position where no match starts. */
  lemma {:induction false} LeftmostPastMiss(t: string, o: nat, acc: string, s: string, w: string)
    requires |w| > 0 && o <= |t| && t[o..] == acc + s && |s| > 0 && !MatchesAt(s, 0, w)
    requires forall p :: o <= p < o + |acc| ==> !MatchesAt(t, p, w)
    ensures ClearFrom(MarkPlainFrom(acc, s, w), t, o, w)
    decreases |s|, 0
  {
    DropInside(t, o, acc, s, 0);
    assert s[0..] == s;
    MatchesShift(t, o + |acc|, 0, w);
    NoMatchOneMore(t, o, |acc|, w);
    MoveHead(acc, s);
    MarkPlainFromLeftmost(t, o, acc + [s[0]], s[1..], w);
  }

  /** Where `a + s` starts at `o` in `t`, `s[d..]` starts at `o + |a| + d`. */
  lemma DropInside(t: string, o: nat, a: string, s: string, d: nat)
    requires o <= |t| && t[o..] == a + s && d <= |s|
    ensures o + |a| + d <= |t| && t[o + |a| + d..] == s[d..]
  {
    assert t[o + |a| + d..] == t[o..][|a| + d..];
  }

  lemma NoMatchOneMore(t: string, o: nat, n: nat, w: string)
    requires forall p :: o <= p < o + n ==> !MatchesAt(t, p, w)
    requires !MatchesAt(t, o + n, w)
    ensures forall p :: o <= p < o + n + 1 ==> !MatchesAt(t, p, w)
  {
  }

  /** Marking the rightmost of two overlapping matches leaves the leftmost unmarked. */
  lemma RightmostMarkIsNotLeftmost()
    ensures !ClearFrom([Plain("a"), Marked("aa")], "aaa", 0, "aa")
  {
    assert MatchesAt("aaa", 0, "aa");
  }

  /**
    One pass of the code splits its input into pieces: the output is their
    rendering, deleting the marks gives the input, every marked piece is a
    match of `w`, no unmarked piece contains one, and no unmarked piece
    covers the start of a match in the input, so the marks are the leftmost
    matches.
  */
  lemma MarkAllMarksOnlyWord(s: string, w: string)
    requires |w| > 0
    ensures exists ps ::
      Render(ps) == MarkAll(s, w) && Flatten(ps) == s && MarkedBy(ps, [w]) && PlainClear(ps, w) && ClearFrom(ps, s, 0, w)
  {
    var ps := MarkPlain(s, w);
    assert s[0..] == [] + s;
    MarkPlainFromLeftmost(s, 0, [], s, w);
    RenderMarkPlainFrom([], s, w);
    assert [] + MarkAll(s, w) == MarkAll(s, w);
    MarkPlainFromKeepsText([], s, w);
    assert [] + s == s;
    MarkPlainFromMarksMatches([], s, w, [w]);
    MarkPlainFromClearsWord([], s, w);
  }

  lemma MarkPieceClearsWord(p: Piece, w: string)
    requires |w| > 0
    ensures PlainClear(MarkPiece(p, w), w)
  {
    if p.Plain? {
      MarkPlainFromClearsWord([], p.text, w);
    }
  }

  /** After a corrected pass for `w`, no unmarked piece contains a match of `w`. */
  lemma {:induction false} MarkPiecesClearsWord(ps: seq<Piece>, w: string)
    requires |w| > 0
    ensures PlainClear(MarkPieces(ps, w), w)
    decreases |ps|
  {
    if |ps| > 0 {
      MarkPieceClearsWord(ps[0], w);
      MarkPiecesClearsWord(ps[1..], w);
      PlainClearAppend(MarkPiece(ps[0], w), MarkPieces(ps[1..], w), w);
    }
  }

  lemma MarkPieceKeepsClear(p: Piece, w: string, v: string)
    requires |w| > 0 && (p.Plain? ==> Clear(p.text, v))
    ensures PlainClear(MarkPiece(p, w), v)
  {
    if p.Plain? {
      assert [] + p.text == p.text;
      MarkPlainFromKeepsClear([], p.text, w, v);
    }
  }

  /** A corrected pass keeps unmarked pieces clear of a word they were already clear of. */
  lemma {:induction false} MarkPiecesKeepsClear(ps: seq<Piece>, w: string, v: string)
    requires |w| > 0 && PlainClear(ps, v)
    ensures PlainClear(MarkPieces(ps, w), v)
    decreases |ps|
  {
    if |ps| > 0 {
      MarkPieceKeepsClear(ps[0], w, v);
      assert PlainClear(ps[1..], v) by {
        assert forall i :: 0 <= i < |ps| - 1 ==> ps[1..][i] == ps[i + 1];
      }
      MarkPiecesKeepsClear(ps[1..], w, v);
      PlainClearAppend(MarkPiece(ps[0], w), MarkPieces(ps[1..], w), v);
    }
  }

  lemma MarkPieceMarks(p: Piece, w: string, words: seq<string>)
    requires |w| > 0 && w in words && MarkedBy([p], words)
    ensures MarkedBy(MarkPiece(p, w), words)
  {
    if p.Plain? {
      MarkPlainFromMarksMatches([], p.text, w, words);
    }
  }

  /** After a corrected pass for one of `words`, every marked piece is still a match of one of `words`. */
  lemma {:induction false} MarkPiecesMarks(ps: seq<Piece>, w: string, words: seq<string>)
    requires |w| > 0 && w in words && MarkedBy(ps, words)
    ensures MarkedBy(MarkPieces(ps, w), words)
    decreases |ps|
  {
    if |ps| > 0 {
      assert MarkedBy([ps[0]], words) by {
        assert [ps[0]][0] == ps[0];
      }
      MarkPieceMarks(ps[0], w, words);
      assert MarkedBy(ps[1..], words) by {
        assert forall i :: 0 <= i < |ps| - 1 ==> ps[1..][i] == ps[i + 1];
      }
      MarkPiecesMarks(ps[1..], w, words);
      MarkedByAppend(MarkPiece(ps[0], w), MarkPieces(ps[1..], w), words);
    }
  }

  /**
    The marked pieces as pairs of offset and text, the offsets counted from
    `o` in the text the pieces cover.
  */
  function MarkedSpans(ps: seq<Piece>, o: nat): set<(nat, string)>
    decreases |ps|
  {
    if |ps| == 0 then {}
    else (if ps[0].Marked? then {(o, ps[0].text)} else {}) + MarkedSpans(ps[1..], o + |ps[0].text|)
  }

  lemma {:induction false} MarkedSpansAppend(a: seq<Piece>, b: seq<Piece>, o: nat)
    ensures MarkedSpans(a + b, o) == MarkedSpans(a, o) + MarkedSpans(b, o + |Flatten(a)|)
    decreases |a|
  {
    if |a| == 0 {
      assert a + b == b;
    } else {
      assert (a + b)[0] == a[0];
      assert (a + b)[1..] == a[1..] + b;
      MarkedSpansAppend(a[1..], b, o + |a[0].text|);
    }
  }

  lemma MarkPieceKeepsMarks(p: Piece, w: string, o: nat)
    requires |w| > 0
    ensures MarkedSpans([p], o) <= MarkedSpans(MarkPiece(p, w), o)
  {
    assert [p][1..] == [];
  }

  /** A corrected pass keeps every mark in place: each marked piece survives at the same offset. */
  lemma {:induction false} MarkPiecesKeepsMarks(ps: seq<Piece>, w: string, o: nat)
    requires |w| > 0
    ensures MarkedSpans(ps, o) <= MarkedSpans(MarkPieces(ps, w), o)
    decreases |ps|
  {
    if |ps| > 0 {
      var head := MarkPiece(ps[0], w);
      var rest := MarkPieces(ps[1..], w);
      MarkPieceKeepsText(ps[0], w);
      MarkPieceKeepsMarks(ps[0], w, o);
      MarkPiecesKeepsMarks(ps[1..], w, o + |ps[0].text|);
      MarkedSpansAppend(head, rest, o);
      MarkedSpansFirst(ps, o);
    }
  }

  lemma MarkedSpansFirst(ps: seq<Piece>, o: nat)
    requires |ps| > 0
    ensures MarkedSpans(ps, o) == MarkedSpans([ps[0]], o) + MarkedSpans(ps[1..], o + |ps[0].text|)
  {
    assert [ps[0]][1..] == [];
  }

  /** Splitting a mark in two does not keep it: the pass may not move or shorten an earlier mark. */
  lemma SplitMarkIsNotKept()
    ensures !(MarkedSpans([Plain(""), Marked("ab"), Plain("")], 0)
              <= MarkedSpans([Plain("a"), Marked("b"), Plain("")], 0))
  {
  }

  lemma {:induction false} MarkWordsFixedKeepsClear(ps: seq<Piece>, words: seq<string>, v: string)
    requires forall i :: 0 <= i < |words| ==> IsWord(words[i])
    requires PlainClear(ps, v)
    ensures PlainClear(MarkWordsFixed(ps, words), v)
    decreases |words|
  {
    if |words| > 0 {
      assert IsWord(words[0]);
      MarkPiecesKeepsClear(ps, words[0], v);
      MarkWordsFixedKeepsClear(MarkPieces(ps, words[0]), words[1..], v);
    }
  }

  /** After the corrected passes, no unmarked piece contains a match of any of the words. */
  lemma {:induction false} MarkWordsFixedClears(ps: seq<Piece>, words: seq<string>)
    requires forall i :: 0 <= i < |words| ==> IsWord(words[i])
    ensures forall i :: 0 <= i < |words| ==> PlainClear(MarkWordsFixed(ps, words), words[i])
    ensures Alternating(ps) ==> Alternating(MarkWordsFixed(ps, words))
    decreases |words|
  {
    if Alternating(ps) {
      MarkWordsFixedAlternates(ps, words);
    }
    if |words| > 0 {
      assert IsWord(words[0]);
      var qs := MarkPieces(ps, words[0]);
      var rest := words[1..];
      MarkPiecesClearsWord(ps, words[0]);
      MarkWordsFixedKeepsClear(qs, rest, words[0]);
      MarkWordsFixedClears(qs, rest);
      assert forall i :: 1 <= i < |words| ==> words[i] == rest[i - 1];
    }
  }

  /**
    Alternating pieces that mark nothing are at most one unmarked piece, so
    they are clear of a word only when the whole text is: a filter that marks
    nothing fails the corrected contract whenever a query word occurs.
  */
  lemma UnmarkedAlternatingIsWhole(ps: seq<Piece>, w: string)
    requires Alternating(ps)
    ensures (forall i :: 0 <= i < |ps| ==> ps[i].Plain?) ==> |ps| <= 1
    ensures (forall i :: 0 <= i < |ps| ==> ps[i].Plain?) && PlainClear(ps, w) ==> Clear(Flatten(ps), w)
  {
    if |ps| == 1 {
      assert ps[1..] == [];
      assert Flatten(ps) == ps[0].text + [] == ps[0].text;
    } else if |ps| > 1 {
      assert !(ps[0].Plain? && ps[1].Plain?);
    }
  }

  /** The pieces of one stretch's pass run unmarked, marked, …, unmarked. */
  lemma {:induction false} MarkPlainFromAlternates(acc: string, s: string, w: string)
    requires |w| > 0
    ensures var ps := MarkPlainFrom(acc, s, w);
      |ps| > 0 && ps[0].Plain? && ps[|ps| - 1].Plain? && Alternating(ps)
    decreases |s|
  {
    if |s| > 0 {
      if MatchesAt(s, 0, w) {
        var head := [Plain(acc), Marked(s[..|w|])];
        var rest := MarkPlainFrom([], s[|w|..], w);
        MarkPlainFromAlternates([], s[|w|..], w);
        AlternatingAppend(head, rest);
        assert (head + rest)[0] == head[0];
        assert (head + rest)[|head + rest| - 1] == rest[|rest| - 1];
      } else {
        MarkPlainFromAlternates(acc + [s[0]], s[1..], w);
      }
    }
  }

  /** A piece's pass starts and ends with a piece of the same kind. */
  lemma MarkPieceShape(p: Piece, w: string)
    requires |w| > 0
    ensures var qs := MarkPiece(p, w);
      |qs| > 0 && qs[0].Plain? == p.Plain? && qs[|qs| - 1].Plain? == p.Plain? && Alternating(qs)
  {
    if p.Plain? {
      MarkPlainFromAlternates([], p.text, w);
    }
  }

  /** A corrected pass keeps unmarked stretches apart, and keeps the kinds of the first and last pieces. */
  lemma {:induction false} MarkPiecesAlternates(ps: seq<Piece>, w: string)
    requires |w| > 0 && Alternating(ps)
    ensures var qs := MarkPieces(ps, w);
      Alternating(qs) && (|ps| > 0 ==> |qs| > 0 && qs[0].Plain? == ps[0].Plain? && qs[|qs| - 1].Plain? == ps[|ps| - 1].Plain?)
    decreases |ps|
  {
    if |ps| > 0 {
      var head := MarkPiece(ps[0], w);
      var tail := ps[1..];
      var rest := MarkPieces(tail, w);
      MarkPieceShape(ps[0], w);
      assert Alternating(tail) by {
        forall i | 0 < i < |tail|
          ensures !(tail[i - 1].Plain? && tail[i].Plain?)
        {
          assert tail[i - 1] == ps[i] && tail[i] == ps[i + 1];
        }
      }
      MarkPiecesAlternates(tail, w);
      if |tail| > 0 {
        assert tail[0] == ps[1];
        assert tail[|tail| - 1] == ps[|ps| - 1];
      }
      AlternatingAppend(head, rest);
      assert (head + rest)[0] == head[0];
      if |tail| > 0 {
        assert (head + rest)[|head + rest| - 1] == rest[|rest| - 1];
      } else {
        assert head + rest == head;
      }
    }
  }

  /** The corrected passes keep every unmarked stretch in one piece. */
  lemma {:induction false} MarkWordsFixedAlternates(ps: seq<Piece>, words: seq<string>)
    requires forall i :: 0 <= i < |words| ==> IsWord(words[i])
    requires Alternating(ps)
    ensures Alternating(MarkWordsFixed(ps, words))
    decreases |words|
  {
    if |words| > 0 {
      assert IsWord(words[0]);
      MarkPiecesAlternates(ps, words[0]);
      MarkWordsFixedAlternates(MarkPieces(ps, words[0]), words[1..]);
    }
  }

  /** After the corrected passes, every marked piece is a match of one of the words. */
  lemma {:induction false} MarkWordsFixedMarks(ps: seq<Piece>, words: seq<string>, all: seq<string>)
    requires forall i :: 0 <= i < |words| ==> IsWord(words[i]) && words[i] in all
    requires MarkedBy(ps, all)
    ensures MarkedBy(MarkWordsFixed(ps, words), all)
    decreases |words|
  {
    if |words| > 0 {
      assert IsWord(words[0]) && words[0] in all;
      MarkPiecesMarks(ps, words[0], all);
      MarkWordsFixedMarks(MarkPieces(ps, words[0]), words[1..], all);
    }
  }

  /** The corrected passes keep every mark in place, so an earlier word's marks take precedence over later words. */
  lemma {:induction false} MarkWordsFixedKeepsMarks(ps: seq<Piece>, words: seq<string>, o: nat)
    requires forall i :: 0 <= i < |words| ==> IsWord(words[i])
    ensures MarkedSpans(ps, o) <= MarkedSpans(MarkWordsFixed(ps, words), o)
    decreases |words|
  {
    if |words| > 0 {
      assert IsWord(words[0]);
      MarkPiecesKeepsMarks(ps, words[0], o);
      MarkWordsFixedKeepsMarks(MarkPieces(ps, words[0]), words[1..], o);
    }
  }

  /** The passes for `a + b` are those for `a` followed by those for `b`. */
  lemma {:induction false} MarkWordsFixedCompose(ps: seq<Piece>, a: seq<string>, b: seq<string>)
    requires forall i :: 0 <= i < |a| ==> IsWord(a[i])
    requires forall i :: 0 <= i < |b| ==> IsWord(b[i])
    ensures MarkWordsFixed(ps, a + b) == MarkWordsFixed(MarkWordsFixed(ps, a), b)
    decreases |a|
  {
    if |a| == 0 {
      assert a + b == b;
    } else {
      assert (a + b)[0] == a[0];
      assert (a + b)[1..] == a[1..] + b;
      assert IsWord(a[0]);
      MarkWordsFixedCompose(MarkPieces(ps, a[0]), a[1..], b);
    }
  }

  /** Every mark made by the passes for the first `n` words is still in place after all of them. */
  lemma MarkWordsFixedPrefixMarks(ps: seq<Piece>, words: seq<string>, n: nat)
    requires forall i :: 0 <= i < |words| ==> IsWord(words[i])
    requires n <= |words|
    ensures MarkedSpans(MarkWordsFixed(ps, words[..n]), 0) <= MarkedSpans(MarkWordsFixed(ps, words), 0)
  {
    assert words == words[..n] + words[n..];
    MarkWordsFixedCompose(ps, words[..n], words[n..]);
    MarkWordsFixedKeepsMarks(MarkWordsFixed(ps, words[..n]), words[n..], 0);
  }

  /** Empty text stays one empty unmarked piece. */
  lemma {:induction false} MarkWordsFixedEmpty(words: seq<string>)
    requires forall i :: 0 <= i < |words| ==> IsWord(words[i])
    ensures MarkWordsFixed([Plain([])], words) == [Plain([])]
    decreases |words|
  {
    if |words| > 0 {
      assert IsWord(words[0]);
      assert [Plain([])][1..] == [];
      assert MarkPieces([Plain([])], words[0]) == [Plain([])] + [];
      MarkWordsFixedEmpty(words[1..]);
    }
  }

  /**
    The corrected filter splits the text into pieces: the output is their
    rendering, deleting the marks gives the text, every marked piece is a
    match of a query word, no unmarked piece contains one, and every mark an
    earlier query word made is still in place.
  */
  lemma HighlightFixedMarksOnlyWords(text: string, query: string)
    ensures var words := Split(Lower(query));
      exists ps :: Render(ps) == HighlightFixed(text, query) && Flatten(ps) == text && Alternating(ps)
        && MarkedBy(ps, words) && (forall i :: 0 <= i < |words| ==> PlainClear(ps, words[i]))
        && forall n :: 0 <= n <= |words| ==> MarkedSpans(MarkWordsFixed([Plain(text)], words[..n]), 0) <= MarkedSpans(ps, 0)
  {
    var words := Split(Lower(query));
    var start := [Plain(text)];
    assert Alternating(start);
    assert start[1..] == [];
    assert Flatten(start) == text + [] == text;
    assert MarkedBy(start, words);
    if |query| > 0 && |text| > 0 {
      var ps := MarkWordsFixed(start, words);
      MarkWordsFixedMarks(start, words, words);
      MarkWordsFixedClears(start, words);
      MarkWordsFixedAlternates(start, words);
      forall n | 0 <= n <= |words|
        ensures MarkedSpans(MarkWordsFixed(start, words[..n]), 0) <= MarkedSpans(ps, 0)
      {
        MarkWordsFixedPrefixMarks(start, words, n);
      }
    } else {
      assert Render(start) == text + [] == text;
      if |query| == 0 {
        assert Lower(query) == [];
        assert words[..0] == [];
      } else {
        forall n | 0 <= n <= |words|
          ensures MarkWordsFixed(start, words[..n]) == start
        {
          MarkWordsFixedEmpty(words[..n]);
        }
      }
    }
  }
}

=== FILE: ranking.dfy ===
/**
  Top-k selection and result assembly of `semantic_search` (app/engine.py):
  `np.argsort(scores)[::-1][:top_k]`, then one record per selected row with
  ranks 1, 2, … joined to the chunk metadata by row index.
*/
module Ranking {
  import opened Common
  import Snippet

  /** One entry of the chunk metadata, aligned by row index with the score vector. */
  datatype Chunk = Chunk(chunkId: string, articleTitle: string, text: string)

  /** One record of the search result list. */
  datatype SearchResult = SearchResult(
    rank: nat,
    articleTitle: string,
    snippet: string,
    score: real,
    chunkId: string)

  predicate Distinct(s: seq<nat>)
  {
    forall i, j :: 0 <= i < j < |s| ==> s[i] != s[j]
  }

  predicate InRange(s: seq<nat>, n: nat)
  {
    forall i :: 0 <= i < |s| ==> s[i] < n
  }

  /** `order` lists every row index `0 .. n-1` exactly once. */
  predicate IsIndexPermutation(order: seq<nat>, n: nat)
  {
    && |order| == n
    && InRange(order, n)
    && Distinct(order)
    && forall x :: 0 <= x < n ==> x in order
  }

  predicate Ascending(scores: seq<real>, order: seq<nat>)
    requires InRange(order, |scores|)
  {
    forall i, j :: 0 <= i < j < |order| ==> scores[order[i]] <= scores[order[j]]
  }

  predicate Descending(scores: seq<real>, order: seq<nat>)
    requires InRange(order, |scores|)
  {
    forall i, j :: 0 <= i < j < |order| ==> scores[order[i]] >= scores[order[j]]
  }

  /**
    What `np.argsort(scores)` may return: the row indices ordered by ascending
    score. The default sort is not stable, so the order among equal scores is
    left open.
  */
  predicate IsArgsort(scores: seq<real>, order: seq<nat>)
  {
    IsIndexPermutation(order, |scores|) && Ascending(scores, order)
  }

  /** Inserts row `x` into an ascending `order`, in front of the first row scoring at least as high. */
  function InsertByScore(scores: seq<real>, order: seq<nat>, x: nat): (r: seq<nat>)
    requires x < |scores| && InRange(order, |scores|)
    ensures |r| == |order| + 1
    ensures forall y :: y in r <==> y in order || y == x
    ensures InRange(r, |scores|)
    ensures Ascending(scores, order) ==> Ascending(scores, r)
    ensures Distinct(order) && x !in order ==> Distinct(r)
  {
    if |order| == 0 || scores[x] <= scores[order[0]] then
      InsertAtFront(scores, order, x);
      [x] + order
    else
      var rest := InsertByScore(scores, order[1..], x);
      InsertBehindHead(scores, order, x, rest);
      [order[0]] + rest
  }

  /** Placing `x` first is an insertion, and keeps the order when `x` scores no higher than the first row. */
  lemma InsertAtFront(scores: seq<real>, order: seq<nat>, x: nat)
    requires x < |scores| && InRange(order, |scores|)
    requires |order| == 0 || scores[x] <= scores[order[0]]
    ensures forall y :: y in [x] + order <==> y in order || y == x
    ensures InRange([x] + order, |scores|)
    ensures Ascending(scores, order) ==> Ascending(scores, [x] + order)
    ensures Distinct(order) && x !in order ==> Distinct([x] + order)
  {
    ConsKeepsOrder(scores, x, order);
    if Ascending(scores, order) && |order| > 0 {
      forall y | y in order
        ensures scores[x] <= scores[y]
      {
        var j :| 0 <= j < |order| && order[j] == y;
        assert j == 0 || scores[order[0]] <= scores[order[j]];
      }
    }
  }

  /** Keeping the first row in front of an insertion into the rest is an insertion into the whole. */
  lemma InsertBehindHead(scores: seq<real>, order: seq<nat>, x: nat, rest: seq<nat>)
    requires x < |scores| && InRange(order, |scores|)
    requires |order| > 0 && scores[order[0]] < scores[x]
    requires |rest| == |order|
    requires forall y :: y in rest <==> y in order[1..] || y == x
    requires InRange(rest, |scores|)
    requires Ascending(scores, order[1..]) ==> Ascending(scores, rest)
    requires Distinct(order[1..]) && x !in order[1..] ==> Distinct(rest)
    ensures forall y :: y in [order[0]] + rest <==> y in order || y == x
    ensures InRange([order[0]] + rest, |scores|)
    ensures Ascending(scores, order) ==> Ascending(scores, [order[0]] + rest)
    ensures Distinct(order) && x !in order ==> Distinct([order[0]] + rest)
  {
    assert order == [order[0]] + order[1..];
    ConsKeepsOrder(scores, order[0], rest);
    if Ascending(scores, order) {
      forall y | y in rest
        ensures scores[order[0]] <= scores[y]
      {
        if y != x {
          var j :| 0 <= j < |order[1..]| && order[1..][j] == y;
          assert order[j + 1] == y;
        }
      }
    }
    if Distinct(order) && x !in order {
      assert order[0] !in order[1..];
    }
  }

  /**
    Putting `h` in front keeps an order ascending when `h` scores no higher
    than anything after it, and keeps it repetition-free when `h` is new.
  */
  lemma ConsKeepsOrder(scores: seq<real>, h: nat, rest: seq<nat>)
    requires h < |scores| && InRange(rest, |scores|)
    ensures InRange([h] + rest, |scores|)
    ensures Ascending(scores, rest) && (forall y :: y in rest ==> scores[h] <= scores[y]) ==>
      Ascending(scores, [h] + rest)
    ensures Distinct(rest) && h !in rest ==> Distinct([h] + rest)
  {
    var r := [h] + rest;
    assert forall i :: 1 <= i < |r| ==> r[i] == rest[i - 1];
  }

  /** An argsort of the first `n` rows, by insertion. */
  function ArgsortPrefix(scores: seq<real>, n: nat): (order: seq<nat>)
    requires n <= |scores|
    ensures IsIndexPermutation(order, n)
    ensures Ascending(scores, order)
  {
    if n == 0 then []
    else
      var prev := ArgsortPrefix(scores, n - 1);
      assert (n - 1) !in prev;
      var order := InsertByScore(scores, prev, n - 1);
      assert forall x :: 0 <= x < n - 1 ==> x in prev;
      assert forall x :: 0 <= x < n ==> x in order;
      assert forall i :: 0 <= i < |order| ==> order[i] in prev || order[i] == n - 1;
      order
  }

  /** One of the orders `np.argsort` may return. */
  function Argsort(scores: seq<real>): (order: seq<nat>)
    ensures IsArgsort(scores, order)
  {
    ArgsortPrefix(scores, |scores|)
  }

  /** `s[::-1]`. */
  function Reverse(s: seq<nat>): (r: seq<nat>)
    ensures |r| == |s|
    ensures forall i :: 0 <= i < |s| ==> r[i] == s[|s| - 1 - i]
  {
    seq(|s|, i requires 0 <= i < |s| => s[|s| - 1 - i])
  }

  /**
    The rows chosen for a `k`-result page: `min(k, N)` distinct rows in
    non-increasing score order, and no row left out scores higher than a row
    chosen.
  */
  predicate IsTopK(scores: seq<real>, sel: seq<nat>, k: nat)
  {
    && |sel| == Min(k, |scores|)
    && InRange(sel, |scores|)
    && Distinct(sel)
    && Descending(scores, sel)
    && forall x, i :: 0 <= x < |scores| && x !in sel && 0 <= i < |sel| ==> scores[x] <= scores[sel[i]]
  }

  /** Reversing an argsort lists the rows by descending score. */
  lemma ReversedArgsortDescends(scores: seq<real>, order: seq<nat>)
    requires IsArgsort(scores, order)
    ensures IsIndexPermutation(Reverse(order), |scores|)
    ensures Descending(scores, Reverse(order))
  {
    var d := Reverse(order);
    var n := |order|;
    forall x | 0 <= x < |scores|
      ensures x in d
    {
      assert x in order;
      var p :| 0 <= p < n && order[p] == x;
      assert d[n - 1 - p] == x;
    }
  }

  /**
    Whatever order `np.argsort` picks among equal scores, the first
    `min(k, N)` rows of its reverse are a top-k selection.
  */
  lemma TopOfAnyArgsort(scores: seq<real>, order: seq<nat>, k: nat)
    requires IsArgsort(scores, order)
    ensures IsTopK(scores, Reverse(order)[..Min(k, |scores|)], k)
  {
    var d := Reverse(order);
    ReversedArgsortDescends(scores, order);
    var m := Min(k, |scores|);
    var sel := d[..m];
    PrefixKeepsOrder(scores, d, m);
    forall x, i | 0 <= x < |scores| && x !in sel && 0 <= i < |sel|
      ensures scores[x] <= scores[sel[i]]
    {
      UnselectedScoresNoHigher(scores, d, m, x, i);
    }
  }

  /** A prefix of a repetition-free, descending order is one too. */
  lemma PrefixKeepsOrder(scores: seq<real>, d: seq<nat>, m: nat)
    requires InRange(d, |scores|) && Distinct(d) && Descending(scores, d) && m <= |d|
    ensures InRange(d[..m], |scores|) && Distinct(d[..m]) && Descending(scores, d[..m])
  {
    assert forall q :: 0 <= q < m ==> d[..m][q] == d[q];
  }

  /** In a descending order of all rows, a row outside the first `m` scores no higher than any of them. */
  lemma UnselectedScoresNoHigher(scores: seq<real>, d: seq<nat>, m: nat, x: nat, i: nat)
    requires IsIndexPermutation(d, |scores|) && Descending(scores, d) && m <= |d|
    requires x < |scores| && x !in d[..m] && i < m
    ensures scores[x] <= scores[d[i]]
  {
    assert x in d;
    var p :| 0 <= p < |d| && d[p] == x;
    assert forall q :: 0 <= q < m ==> d[..m][q] == d[q];
    assert i < p;
  }

  /** `np.argsort(scores)[::-1][:top_k]`. */
  function TopIndices(scores: seq<real>, k: nat): (sel: seq<nat>)
    ensures IsTopK(scores, sel, k)
  {
    var order := Argsort(scores);
    TopOfAnyArgsort(scores, order, k);
    Reverse(order)[..Min(k, |scores|)]
  }

  /** `clean_snippet(text)` with its default budget of 450 characters. */
  function SnippetOf(text: string): (snippet: string)
    ensures |snippet| <= Snippet.DefaultMaxChars
  {
    Snippet.CleanSnippet(text, Snippet.DefaultMaxChars)
  }

  /** The record `semantic_search` builds for row `idx` at rank `rank`, its snippet made by `clean`. */
  function RecordFor(metadata: seq<Chunk>, scores: seq<real>, clean: string -> string, idx: nat, rank: nat)
    : (record: SearchResult)
    requires idx < |metadata| && idx < |scores|
    ensures record.rank == rank
    ensures record.articleTitle == metadata[idx].articleTitle && record.chunkId == metadata[idx].chunkId
    ensures record.snippet == clean(metadata[idx].text) && record.score == scores[idx]
  {
    var chunk := metadata[idx];
    SearchResult(rank, chunk.articleTitle, clean(chunk.text), scores[idx], chunk.chunkId)
  }

  /** The loop `for rank, idx in enumerate(sel, start=1)`. */
  function BuildResults(metadata: seq<Chunk>, scores: seq<real>, clean: string -> string, sel: seq<nat>)
    : (results: seq<SearchResult>)
    requires InRange(sel, |metadata|) && InRange(sel, |scores|)
    ensures |results| == |sel|
    ensures forall r :: 0 <= r < |results| ==> results[r].rank == r + 1
    ensures forall r :: 0 <= r < |results| ==>
      && results[r].chunkId == metadata[sel[r]].chunkId
      && results[r].articleTitle == metadata[sel[r]].articleTitle
      && results[r].score == scores[sel[r]]
    ensures (forall i, j :: 0 <= i < j < |sel| ==> scores[sel[i]] >= scores[sel[j]]) ==>
      forall i, j :: 0 <= i < j < |results| ==> results[i].score >= results[j].score
  {
    seq(|sel|, r requires 0 <= r < |sel| => RecordFor(metadata, scores, clean, sel[r], r + 1))
  }

  /**
    `results` is a correct result page for `k`: `min(k, N)` records whose
    ranks count 1, 2, … and whose title, chunk id, score and snippet all come
    from the row at the same position of some top-k selection.
  */
  ghost predicate IsRanking(
    results: seq<SearchResult>, metadata: seq<Chunk>, scores: seq<real>, clean: string -> string, k: nat)
    requires |scores| == |metadata|
  {
    && |results| == Min(k, |metadata|)
    && (forall r :: 0 <= r < |results| ==> results[r].rank == r + 1)
    && exists sel :: IsTopK(scores, sel, k) && RecordsOf(results, metadata, scores, clean, sel)
  }

  /** `results` holds, in order, the records of the selected rows with ranks 1, 2, …. */
  predicate RecordsOf(
    results: seq<SearchResult>, metadata: seq<Chunk>, scores: seq<real>, clean: string -> string, sel: seq<nat>)
    requires |scores| == |metadata| && InRange(sel, |scores|)
  {
    && |sel| == |results|
    && forall r :: 0 <= r < |results| ==> results[r] == RecordFor(metadata, scores, clean, sel[r], r + 1)
  }

  /**
    Top-k selection and result assembly: a correct result page, so `k = 0` or
    an empty corpus gives no records.
  */
  function RankResults(metadata: seq<Chunk>, scores: seq<real>, k: nat): (results: seq<SearchResult>)
    requires |scores| == |metadata|
    ensures IsRanking(results, metadata, scores, SnippetOf, k)
    ensures k == 0 || |metadata| == 0 ==> results == []
  {
    var sel := TopIndices(scores, k);
    RecordsOfTopK(metadata, scores, SnippetOf, sel, k);
    BuildResults(metadata, scores, SnippetOf, sel)
  }

  /** The records built from any top-k selection form a correct result page. */
  lemma RecordsOfTopK(metadata: seq<Chunk>, scores: seq<real>, clean: string -> string, sel: seq<nat>, k: nat)
    requires |scores| == |metadata| && IsTopK(scores, sel, k)
    ensures IsRanking(BuildResults(metadata, scores, clean, sel), metadata, scores, clean, k)
  {
    var results := BuildResults(metadata, scores, clean, sel);
    assert RecordsOf(results, metadata, scores, clean, sel);
  }
}

=== FILE: retry.dfy ===
/**
  The query-embedding retry loop of `semantic_search` (app/engine.py). The
  remote `feature_extraction` call is an oracle: `oracle[i]` is what attempt
  `i + 1` returns or raises. Creating a client, sleeping and logging are
  recorded as events of a trace.
*/
module Retry {
  import opened Common

  /** `max_retries`: attempts in total, not retries after the first. */
  const MaxRetries: nat := 2

  /** Seconds slept before a retry. */
  const RetryDelay: real := 0.5

  /** What one `feature_extraction` attempt does. */
  datatype Outcome<+V> = Returned(vector: V) | Raised(cause: string)

  datatype Event =
    | CreateClient
    | FeatureExtraction(attempt: nat)
    | Warning(attempt: nat, cause: string)
    | Sleep(seconds: real)
    | AllAttemptsFailed(attempts: nat)

  /** The exception raised once every attempt has failed: attempt count and last cause. */
  datatype RemoteServiceError = RemoteServiceError(attempts: nat, lastCause: string)

  datatype Run<+V> = Run(result: Result<V, RemoteServiceError>, trace: seq<Event>)

  function CountCalls(trace: seq<Event>): (n: nat)
    ensures n <= |trace|
  {
    if |trace| == 0 then 0
    else (if trace[0].FeatureExtraction? then 1 else 0) + CountCalls(trace[1..])
  }

  lemma CountCallsAppend(a: seq<Event>, b: seq<Event>)
    ensures CountCalls(a + b) == CountCalls(a) + CountCalls(b)
  {
    if |a| == 0 {
      assert a + b == b;
    } else {
      assert (a + b)[0] == a[0];
      assert (a + b)[1..] == a[1..] + b;
      CountCallsAppend(a[1..], b);
    }
  }

  lemma NoCalls(trace: seq<Event>)
    requires forall i :: 0 <= i < |trace| ==> !trace[i].FeatureExtraction?
    ensures CountCalls(trace) == 0
  {
    if |trace| > 0 {
      NoCalls(trace[1..]);
    }
  }

  /**
    The loop from 0-based attempt `attempt` on, a client for it already
    created. It returns the vector of the first attempt that returns, and
    raises with the last cause when every attempt up to `MaxRetries` raises.
  */
  function Attempts<V>(oracle: seq<Outcome<V>>, attempt: nat): (run: Run<V>)
    requires attempt < MaxRetries <= |oracle|
    ensures run.result.Ok? <==> exists i :: attempt <= i < MaxRetries && oracle[i].Returned?
    ensures run.result.Ok? ==>
      exists i ::
        && attempt <= i < MaxRetries
        && oracle[i].Returned?
        && run.result.value == oracle[i].vector
        && forall j :: attempt <= j < i ==> oracle[j].Raised?
    ensures run.result.Err? ==>
      run.result.error == RemoteServiceError(MaxRetries, oracle[MaxRetries - 1].cause)
    ensures CountCalls(run.trace) <= MaxRetries - attempt
    decreases MaxRetries - attempt
  {
    var call := [FeatureExtraction(attempt + 1)];
    match oracle[attempt]
    case Returned(v) => Run(Ok(v), call)
    case Raised(e) =>
      var warned := call + [Warning(attempt + 1, e)];
      if attempt < MaxRetries - 1 then
        var rest := Attempts(oracle, attempt + 1);
        var trace := warned + [CreateClient, Sleep(RetryDelay)] + rest.trace;
        CountCallsAppend(warned + [CreateClient, Sleep(RetryDelay)], rest.trace);
        CountCallsAppend(call, [Warning(attempt + 1, e)]);
        CountCallsAppend(warned, [CreateClient, Sleep(RetryDelay)]);
        NoCalls([CreateClient, Sleep(RetryDelay)]);
        Run(rest.result, trace)
      else
        var trace := warned + [AllAttemptsFailed(MaxRetries)];
        CountCallsAppend(warned, [AllAttemptsFailed(MaxRetries)]);
        CountCallsAppend(call, [Warning(attempt + 1, e)]);
        Run(Err(RemoteServiceError(MaxRetries, e)), trace)
  }

  /**
    The embedding step of `semantic_search`: one client before the loop, then
    at most two `feature_extraction` attempts. A failed first attempt logs a
    warning, creates exactly one fresh client and sleeps 0.5 s before the
    second; the loop stops at the first success, and a second failure logs a
    warning and an error and raises with the attempt count and last cause.
  */
  function EmbedWithRetry<V>(oracle: seq<Outcome<V>>): (run: Run<V>)
    requires MaxRetries <= |oracle|
    ensures oracle[0].Returned? ==>
      run == Run(Ok(oracle[0].vector), [CreateClient, FeatureExtraction(1)])
    ensures oracle[0].Raised? && oracle[1].Returned? ==>
      run == Run(Ok(oracle[1].vector),
                 [CreateClient, FeatureExtraction(1), Warning(1, oracle[0].cause),
                  CreateClient, Sleep(0.5), FeatureExtraction(2)])
    ensures oracle[0].Raised? && oracle[1].Raised? ==>
      run == Run(Err(RemoteServiceError(2, oracle[1].cause)),
                 [CreateClient, FeatureExtraction(1), Warning(1, oracle[0].cause),
                  CreateClient, Sleep(0.5), FeatureExtraction(2), Warning(2, oracle[1].cause),
                  AllAttemptsFailed(2)])
  {
    var loop := Attempts(oracle, 0);
    Run(loop.result, [CreateClient] + loop.trace)
  }

  /** The loop never makes more than `MaxRetries` remote calls. */
  lemma AtMostMaxRetriesCalls<V>(oracle: seq<Outcome<V>>)
    requires MaxRetries <= |oracle|
    ensures CountCalls(EmbedWithRetry(oracle).trace) <= MaxRetries
  {
    var loop := Attempts(oracle, 0);
    CountCallsAppend([CreateClient], loop.trace);
  }
}

=== FILE: search.dfy ===
/**
  `semantic_search` (app/engine.py) end to end: resolve `top_k`, embed the
  query with the retry loop, score every row and assemble the ranked records.
  Normalising the query vector and taking dot products are floating-point
  work outside this model; `scoresOf` stands for them, giving one score per
  corpus row for a returned vector.
*/
module Search {
  import opened Common
  import Retry
  import Ranking

  /** A query embedding as returned by the inference service. */
  type Vector = seq<real>

  /** The fields of `config.json` the search reads. */
  datatype Config = Config(modelName: string, topK: nat)

  /** What `get_engine_data` provides: the configuration and the row-aligned chunk metadata. */
  datatype EngineData = EngineData(config: Config, metadata: seq<Ranking.Chunk>)

  /** The page size: the caller's `top_k`, or the configured one when the caller passes `None`. */
  function ResolveTopK(config: Config, topK: Option<nat>): (k: nat)
    ensures topK.Some? ==> k == topK.value
    ensures topK.None? ==> k == config.topK
  {
    match topK
    case Some(k) => k
    case None => config.topK
  }

  /**
    A search raises exactly when both attempts raise, with the last cause; it
    otherwise ranks the rows by the scores of the first vector returned, for
    the page size the caller gave or else the configured one.
  */
  function SemanticSearch(
    data: EngineData,
    topK: Option<nat>,
    oracle: seq<Retry.Outcome<Vector>>,
    scoresOf: Vector -> seq<real>)
    : (r: Result<seq<Ranking.SearchResult>, Retry.RemoteServiceError>)
    requires Retry.MaxRetries <= |oracle|
    requires forall v :: |scoresOf(v)| == |data.metadata|
    ensures r.Err? <==> oracle[0].Raised? && oracle[1].Raised?
    ensures r.Err? ==> r.error == Retry.RemoteServiceError(2, oracle[1].cause)
    ensures oracle[0].Returned? ==>
      r.Ok? && Ranking.IsRanking(r.value, data.metadata, scoresOf(oracle[0].vector), Ranking.SnippetOf, ResolveTopK(data.config, topK))
    ensures oracle[0].Raised? && oracle[1].Returned? ==>
      r.Ok? && Ranking.IsRanking(r.value, data.metadata, scoresOf(oracle[1].vector), Ranking.SnippetOf, ResolveTopK(data.config, topK))
    ensures topK.None? && r.Ok? ==> |r.value| == Min(data.config.topK, |data.metadata|)
  {
    var k := ResolveTopK(data.config, topK);
    var embedded := Retry.EmbedWithRetry(oracle);
    match embedded.result
    case Err(e) => Err(e)
    case Ok(vector) => Ok(Ranking.RankResults(data.metadata, scoresOf(vector), k))
  }
}

=== FILE: snippet.dfy ===
/**
  The snippet sanitiser `clean_snippet` (app/engine.py): it deletes wiki-style
  headings, collapses whitespace, and cuts the text to a character budget,
  preferring to end at a sentence boundary in the second half of the budget.
*/
module Snippet {
  import opened Common
  import opened Text

  /** Default character budget of `clean_snippet`. */
  const DefaultMaxChars: nat := 450

  /** Most markers either side of a heading (`={1,4}`). */
  const MaxMarkers: nat := 4

  predicate IsMarker(c: char)
  {
    c == '='
  }

  /** The heading text class `[^=\n]`. */
  predicate IsHeadingText(c: char)
  {
    c != '=' && c != '\n'
  }

  // ---------------------------------------------------------------------------
  // Heading removal: re.sub(r'={1,4}[^=\n]+={1,4}', '', text)
  // ---------------------------------------------------------------------------

  /**
    The heading pattern matches the first `e + c + f` characters of `s` as `e`
    markers, `c` heading-text characters and `f` markers. Every way the
    backtracking matcher could split a match is one such triple.
  */
  ghost predicate Matches(s: string, e: int, c: int, f: int)
  {
    && 1 <= e <= MaxMarkers && 1 <= c && 1 <= f <= MaxMarkers
    && e + c + f <= |s|
    && (forall k :: 0 <= k < e ==> IsMarker(s[k]))
    && (forall k :: e <= k < e + c ==> IsHeadingText(s[k]))
    && (forall k :: e + c <= k < e + c + f ==> IsMarker(s[k]))
  }

  /**
    The order in which a backtracking matcher tries splits: the greedy
    quantifiers are tried longest first, the leftmost quantifier deciding first.
  */
  ghost predicate Prefers(e: int, c: int, f: int, e': int, c': int, f': int)
  {
    e > e' || (e == e' && (c > c' || (c == c' && f >= f')))
  }

  /** The length of the heading match that starts at `s[0]`, if there is one. */
  function HeadingAt(s: string): (m: Option<nat>)
    ensures m.Some? ==> 3 <= m.value <= |s|
  {
    var e := Span(s, IsMarker);
    if e == 0 || e > MaxMarkers then None
    else
      var c := Span(s[e..], IsHeadingText);
      if c == 0 || e + c == |s| || s[e + c] != '=' then None
      else Some(e + c + Min(Span(s[e + c..], IsMarker), MaxMarkers))
  }

  /** In every match the opening markers and the heading text are maximal runs. */
  lemma MatchShape(s: string, e: int, c: int, f: int)
    requires Matches(s, e, c, f)
    ensures e == Span(s, IsMarker)
    ensures c == Span(s[e..], IsHeadingText)
    ensures f <= Span(s[e + c..], IsMarker)
  {
    SpanUnique(s, IsMarker, e);
    SpanUnique(s[e..], IsHeadingText, c);
    var rest := s[e + c..];
    forall k | 0 <= k < f
      ensures IsMarker(rest[k])
    {
      assert rest[k] == s[e + c + k];
    }
  }

  /** The split `HeadingAt` measures is a match, and a backtracking matcher prefers it to every other. */
  lemma FoundSplitIsFirst(s: string, e: nat, c: nat, f: nat)
    requires HeadingAt(s).Some?
    requires e == Span(s, IsMarker) && c == Span(s[e..], IsHeadingText)
    requires f == Min(Span(s[e + c..], IsMarker), MaxMarkers)
    ensures HeadingAt(s).value == e + c + f
    ensures Matches(s, e, c, f)
    ensures forall e', c', f' :: Matches(s, e', c', f') ==> Prefers(e, c, f, e', c', f')
  {
    assert s[e + c..][0] == s[e + c];
    forall k | e <= k < e + c
      ensures IsHeadingText(s[k])
    {
      assert s[e..][k - e] == s[k];
    }
    forall k | e + c <= k < e + c + f
      ensures IsMarker(s[k])
    {
      assert s[e + c..][k - e - c] == s[k];
    }
    forall e', c', f' | Matches(s, e', c', f')
      ensures Prefers(e, c, f, e', c', f')
    {
      MatchShape(s, e', c', f');
    }
  }

  /** When `HeadingAt` finds nothing, no split matches. */
  lemma NoSplitMatches(s: string)
    requires HeadingAt(s).None?
    ensures forall e, c, f :: !Matches(s, e, c, f)
  {
    forall e', c', f' | Matches(s, e', c', f')
      ensures false
    {
      MatchShape(s, e', c', f');
    }
  }

  /**
    `HeadingAt` is the regular expression anchored at `s[0]`: it finds no match
    exactly when no split matches, and otherwise the split a backtracking
    matcher reaches first.
  */
  lemma HeadingAtIsRegexMatch(s: string)
    ensures HeadingAt(s).None? <==> forall e, c, f :: !Matches(s, e, c, f)
    ensures HeadingAt(s).Some? ==>
      exists e, c, f ::
        && Matches(s, e, c, f)
        && HeadingAt(s).value == e + c + f
        && forall e', c', f' :: Matches(s, e', c', f') ==> Prefers(e, c, f, e', c', f')
  {
    if HeadingAt(s).Some? {
      var e := Span(s, IsMarker);
      var c := Span(s[e..], IsHeadingText);
      var f := Min(Span(s[e + c..], IsMarker), MaxMarkers);
      FoundSplitIsFirst(s, e, c, f);
    } else {
      NoSplitMatches(s);
    }
  }

  /**
    Deletes every heading match, scanning left to right and resuming after each
    match, as `re.sub` does.
  */
  function StripHeadings(s: string): (r: string)
    ensures |r| <= |s|
    decreases |s|
  {
    if |s| == 0 then []
    else
      match HeadingAt(s)
      case Some(n) => StripHeadings(s[n..])
      case None => [s[0]] + StripHeadings(s[1..])
  }

  /** Text without a single `=` passes heading removal unchanged. */
  lemma {:induction false} StripHeadingsNoMarker(s: string)
    requires forall k :: 0 <= k < |s| ==> s[k] != '='
    ensures StripHeadings(s) == s
    decreases |s|
  {
    if |s| > 0 {
      assert Span(s, IsMarker) == 0;
      StripHeadingsNoMarker(s[1..]);
    }
  }

  /** Where no heading starts, the first character is kept. */
  lemma StripHeadingsKeep(s: string)
    requires |s| > 0 && HeadingAt(s).None?
    ensures StripHeadings(s) == [s[0]] + StripHeadings(s[1..])
  {
  }

  /** Where a heading of length `n` starts, it is deleted. */
  lemma StripHeadingsSkip(s: string, n: nat)
    requires |s| > 0 && HeadingAt(s) == Some(n)
    ensures n <= |s|
    ensures StripHeadings(s) == StripHeadings(s[n..])
  {
  }

  /**
    Heading removal at the leftmost match: the text before the first position
    where a heading matches is kept, the match of length `n` is deleted, and
    the scan resumes right after it.
  */
  lemma StripHeadingsAtFirstMatch(s: string, i: nat, n: nat)
    requires i < |s| && HeadingAt(s[i..]) == Some(n)
    requires forall j {:trigger HeadingAt(s[j..])} :: 0 <= j < i ==> HeadingAt(s[j..]).None?
    ensures i + n <= |s|
    ensures StripHeadings(s) == s[..i] + StripHeadings(s[i + n..])
  {
    StripHeadingsBeforeMatch(s, i, n, s[i + n..]);
  }

  lemma StripHeadingsMatchAtStart(s: string, n: nat, tail: string)
    requires 0 < |s| && HeadingAt(s[0..]) == Some(n)
    requires n <= |s| && tail == s[n..]
    ensures StripHeadings(s) == s[..0] + StripHeadings(tail)
  {
    assert s[0..] == s;
    StripHeadingsSkip(s, n);
    assert s[..0] + StripHeadings(tail) == StripHeadings(tail);
  }

  /** The preconditions of `StripHeadingsBeforeMatch`, one character further on. */
  lemma NoHeadingShift(s: string, i: nat, n: nat, tail: string)
    requires 0 < i < |s| && HeadingAt(s[i..]) == Some(n)
    requires forall j {:trigger HeadingAt(s[j..])} :: 0 <= j < i ==> HeadingAt(s[j..]).None?
    requires i + n <= |s| && tail == s[i + n..]
    ensures HeadingAt(s).None?
    ensures HeadingAt(s[1..][i - 1..]) == Some(n)
    ensures forall j {:trigger HeadingAt(s[1..][j..])} :: 0 <= j < i - 1 ==> HeadingAt(s[1..][j..]).None?
    ensures s[1..][i - 1 + n..] == tail
  {
    assert s[0..] == s;
    var t := s[1..];
    assert t[i - 1..] == s[i..];
    forall j | 0 <= j < i - 1
      ensures HeadingAt(t[j..]).None?
    {
      assert t[j..] == s[j + 1..];
    }
  }

  /** A kept first character followed by the removal result of the rest. */
  lemma KeepThenRest(s: string, i: nat, rest: string)
    requires 0 < i <= |s| && HeadingAt(s).None?
    requires StripHeadings(s[1..]) == s[1..][..i - 1] + rest
    ensures StripHeadings(s) == s[..i] + rest
  {
    StripHeadingsKeep(s);
    ConsTake(s, i, rest);
  }

  lemma ConsTake(s: string, i: nat, rest: string)
    requires 0 < i <= |s|
    ensures [s[0]] + (s[1..][..i - 1] + rest) == s[..i] + rest
  {
    assert [s[0]] + s[1..][..i - 1] == s[..i];
  }

  /** `StripHeadingsAtFirstMatch` with the text after the match named `tail`. */
  lemma {:induction false} StripHeadingsBeforeMatch(s: string, i: nat, n: nat, tail: string)
    requires i < |s| && HeadingAt(s[i..]) == Some(n)
    requires forall j {:trigger HeadingAt(s[j..])} :: 0 <= j < i ==> HeadingAt(s[j..]).None?
    requires i + n <= |s| && tail == s[i + n..]
    ensures StripHeadings(s) == s[..i] + StripHeadings(tail)
    decreases i, 1
  {
    if i == 0 {
      StripHeadingsMatchAtStart(s, n, tail);
    } else {
      StripHeadingsKeepBeforeMatch(s, i, n, tail);
    }
  }

  /** The step of `StripHeadingsBeforeMatch`: the first character is kept, and the rest is one shorter. */
  lemma {:induction false} StripHeadingsKeepBeforeMatch(s: string, i: nat, n: nat, tail: string)
    requires 0 < i < |s| && HeadingAt(s[i..]) == Some(n)
    requires forall j {:trigger HeadingAt(s[j..])} :: 0 <= j < i ==> HeadingAt(s[j..]).None?
    requires i + n <= |s| && tail == s[i + n..]
    ensures StripHeadings(s) == s[..i] + StripHeadings(tail)
    decreases i, 0
  {
    NoHeadingShift(s, i, n, tail);
    StripHeadingsBeforeMatch(s[1..], i - 1, n, tail);
    KeepThenRest(s, i, StripHeadings(tail));
  }

  /** Characters outside every heading match are kept, in order. */
  lemma {:induction false} StripHeadingsKeepsUnmatched(s: string)
    requires forall i :: 0 <= i < |s| ==> HeadingAt(s[i..]).None?
    ensures StripHeadings(s) == s
    decreases |s|
  {
    if |s| > 0 {
      assert s[0..] == s;
      forall i | 0 <= i < |s| - 1
        ensures HeadingAt(s[1..][i..]).None?
      {
        assert s[1..][i..] == s[i + 1..];
      }
      StripHeadingsKeepsUnmatched(s[1..]);
    }
  }

  // ---------------------------------------------------------------------------
  // Whitespace: re.sub(r'\s+', ' ', text).strip()
  // ---------------------------------------------------------------------------

  /** `re.sub(r'\s+', ' ', s)`: each maximal whitespace run becomes one blank. */
  function Collapse(s: string): (r: string)
    ensures |r| == 0 <==> |s| == 0
    ensures |s| > 0 && IsSpace(s[0]) ==> r[0] == ' '
    ensures |s| > 0 && !IsSpace(s[0]) ==> r[0] == s[0]
    ensures OnlyBlanks(r) && NoDoubleSpace(r)
    decreases |s|
  {
    if |s| == 0 then []
    else if IsSpace(s[0]) then
      var rest := Collapse(TrimLeft(s));
      assert |rest| > 0 ==> !IsSpace(rest[0]);
      [' '] + rest
    else
      var w := Span(s, IsWordChar);
      var rest := Collapse(s[w..]);
      assert |rest| > 0 ==> rest[0] == ' ';
      s[..w] + rest
  }

  /** Collapsing whitespace keeps the words. */
  lemma {:induction false} SplitCollapse(s: string)
    ensures Split(Collapse(s)) == Split(s)
    decreases |s|
  {
    if |s| > 0 {
      if IsSpace(s[0]) {
        var rest := Collapse(TrimLeft(s));
        assert ([' '] + rest)[1..] == rest;
        SplitCollapse(TrimLeft(s));
        SplitTrimLeft(s);
      } else {
        var w := Span(s, IsWordChar);
        var rest := Collapse(s[w..]);
        var t := s[..w] + rest;
        SpanAppend(s[..w], rest, IsWordChar);
        SpanUnique(s[..w], IsWordChar, w);
        assert t[0] == s[0];
        assert t[..w] == s[..w] && t[w..] == rest;
        SplitCollapse(s[w..]);
      }
    }
  }

  /** Stripping a collapsed string leaves it in normal form. */
  lemma TrimCollapsedIsNormal(t: string)
    requires OnlyBlanks(t) && NoDoubleSpace(t)
    ensures Normal(Trim(t))
  {
    var u := TrimLeft(t);
    var k := Span(t, IsSpace);
    forall i | 0 < i < |u|
      ensures !(IsSpace(u[i - 1]) && IsSpace(u[i]))
    {
      assert u[i - 1] == t[k + i - 1] && u[i] == t[k + i];
    }
    forall i | 0 <= i < |u| && IsSpace(u[i])
      ensures u[i] == ' '
    {
      assert u[i] == t[k + i];
    }
    assert |u| > 0 ==> u[0] == t[k];
    var v := TrimRight(u);
    assert forall i :: 0 <= i < |v| ==> v[i] == u[i];
  }

  /**
    `re.sub(r'\s+', ' ', s).strip()`: normal-form text (no whitespace at the
    ends, only single blanks) holding the words of `s` in order.
  */
  function Normalize(s: string): (r: string)
    ensures Normal(r)
    ensures Split(r) == Split(s)
  {
    TrimCollapsedIsNormal(Collapse(s));
    SplitTrim(Collapse(s));
    SplitCollapse(s);
    Trim(Collapse(s))
  }

  /**
    Whitespace normalisation is `" ".join(s.split())`: the words of the input,
    in order, separated by single blanks.
  */
  lemma NormalizeIsJoinOfWords(s: string)
    ensures Normal(Normalize(s))
    ensures Normalize(s) == Join(Split(s))
  {
    JoinSplitNormal(Normalize(s));
  }

  /** A second normalisation finds nothing to change. */
  lemma NormalizeIdempotent(s: string)
    ensures Normalize(Normalize(s)) == Normalize(s)
  {
    NormalizeIsJoinOfWords(s);
    NormalizeIsJoinOfWords(Normalize(s));
    JoinSplitNormal(Normalize(s));
  }

  // ---------------------------------------------------------------------------
  // Truncation at a sentence boundary
  // ---------------------------------------------------------------------------

  /** `p[i:i+2] == ". "`. */
  predicate PeriodSpaceAt(p: string, i: int)
  {
    0 <= i && i + 1 < |p| && p[i] == '.' && p[i + 1] == ' '
  }

  /** `p.rfind('. ')`: where the last `". "` of `p` starts, or -1 when there is none. */
  function RFindPeriodSpace(p: string): (k: int)
    ensures -1 <= k < |p|
    ensures k >= 0 ==> PeriodSpaceAt(p, k)
    ensures forall i :: k < i < |p| ==> !PeriodSpaceAt(p, i)
  {
    if |p| < 2 then -1
    else if p[|p| - 2] == '.' && p[|p| - 1] == ' ' then |p| - 2
    else
      var k := RFindPeriodSpace(p[..|p| - 1]);
      assert forall i :: k < i < |p| && PeriodSpaceAt(p, i) ==> PeriodSpaceAt(p[..|p| - 1], i);
      k
  }

  /**
    The truncation step of `clean_snippet`: text within the budget is kept;
    longer text is cut to `maxChars` characters and, when the last `". "` of
    that prefix starts beyond half the budget, cut again just after its period.
  */
  function Truncate(t: string, maxChars: nat): (r: string)
    ensures r <= t
    ensures |r| <= maxChars || r == t
    ensures |t| <= maxChars ==> r == t
    ensures |t| > maxChars && (forall i :: maxChars / 2 < i ==> !PeriodSpaceAt(t[..maxChars], i))
      ==> r == t[..maxChars]
    ensures |t| > maxChars && (exists i :: maxChars / 2 < i && PeriodSpaceAt(t[..maxChars], i))
      ==> exists k ::
            && maxChars / 2 < k && PeriodSpaceAt(t[..maxChars], k)
            && (forall j :: k < j ==> !PeriodSpaceAt(t[..maxChars], j))
            && r == t[..k + 1] && r[|r| - 1] == '.'
  {
    if |t| <= maxChars then t
    else
      var cut := t[..maxChars];
      var k := RFindPeriodSpace(cut);
      if k > maxChars / 2 then cut[..k + 1] else cut
  }

  /**
    `clean_snippet(text, max_chars)`: at most `maxChars` characters, a prefix of
    the heading-free, whitespace-normalised text, starting with a non-space and
    never holding two whitespace characters in a row; text that fits the budget
    is returned whole and so has no trailing whitespace either.
  */
  function CleanSnippet(text: string, maxChars: nat): (r: string)
    ensures |r| <= maxChars
    ensures r <= Normalize(StripHeadings(text))
    ensures NoLeadingSpace(r) && OnlyBlanks(r) && NoDoubleSpace(r)
    ensures |Normalize(StripHeadings(text))| <= maxChars ==>
      r == Normalize(StripHeadings(text)) && NoTrailingSpace(r)
  {
    var t := Normalize(StripHeadings(text));
    NormalizeIsJoinOfWords(StripHeadings(text));
    var r := Truncate(t, maxChars);
    PrefixOfNormal(t, r);
    r
  }

  /** A prefix of normal-form text starts with a non-space and has only single blanks. */
  lemma PrefixOfNormal(t: string, r: string)
    requires Normal(t) && r <= t
    ensures NoLeadingSpace(r) && OnlyBlanks(r) && NoDoubleSpace(r)
  {
    assert forall i :: 0 <= i < |r| ==> r[i] == t[i];
  }

  /** Text already in normal form is a fixed point of whitespace normalisation. */
  lemma NormalizeOfNormal(t: string)
    requires Normal(t)
    ensures Normalize(t) == t
  {
    NormalizeIsJoinOfWords(t);
    JoinSplitNormal(t);
  }

  /**
    A budget cut can end on a blank, which a second pass strips: the sanitiser
    is not idempotent. Cutting "u v" to `|u| + 1` characters keeps the blank
    after `u` (for instance "ab cd" with a budget of 3 gives "ab "), and
    sanitising that again drops it.
  */
  lemma CleanSnippetNotIdempotent(u: string, v: string)
    requires IsWord(u) && IsWord(v)
    requires forall k :: 0 <= k < |u| ==> u[k] != '=' && u[k] != '.'
    requires forall k :: 0 <= k < |v| ==> v[k] != '='
    ensures CleanSnippet(u + " " + v, |u| + 1) == u + " "
    ensures CleanSnippet(u + " ", |u| + 1) == u
    ensures CleanSnippet(CleanSnippet(u + " " + v, |u| + 1), |u| + 1) != CleanSnippet(u + " " + v, |u| + 1)
  {
    CutAfterFirstWord(u, v);
    CleanFirstWordAndBlank(u);
  }

  /**
    Heading removal runs before whitespace is collapsed, so a newline can keep
    apart markers that a second pass sees as one heading: the sanitiser is not
    idempotent even on text within the budget.
  */
  lemma CleanSnippetNotIdempotentOnHeading()
    ensures CleanSnippet("=a\nb=", DefaultMaxChars) == "=a b="
    ensures CleanSnippet("=a b=", DefaultMaxChars) == ""
  {
    NewlineSplitsHeading();
    CleanSnippetSteps("=a\nb=", DefaultMaxChars);
    CleanSnippetSteps("=a b=", DefaultMaxChars);
    OneHeadingIsDeleted();
    assert Normalize([]) == [];
  }

  /** No heading starts anywhere in "=a\nb=", and its words joined by a blank are "=a b=". */
  lemma NewlineSplitsHeading()
    ensures StripHeadings("=a\nb=") == "=a\nb="
    ensures Normalize("=a\nb=") == "=a b="
  {
    var s := "=a\nb=";
    NoHeadingInExample(s);
    StripHeadingsKeepsUnmatched(s);
    SplitOfExample(s);
    NormalizeIsJoinOfWords(s);
    JoinOfExample();
  }

  /** `" ".join(["=a", "b="])` is "=a b=". */
  lemma JoinOfExample()
    ensures Join(["=a", "b="]) == "=a b="
  {
    var ws := ["=a", "b="];
    assert ws[1..] == ["b="] && ["b="][1..] == [];
    assert Join(["b="]) == "b=";
  }

  /** The heading text after the first `=` stops at the newline, and the rest opens no heading. */
  lemma NoHeadingInExample(s: string)
    requires s == "=a\nb="
    ensures forall i :: 0 <= i < |s| ==> HeadingAt(s[i..]).None?
  {
    assert s[1..] == "a\nb=";
    assert Span(s, IsMarker) == 1 by { SpanUnique(s, IsMarker, 1); }
    assert Span(s[1..], IsHeadingText) == 1 by { SpanUnique(s[1..], IsHeadingText, 1); }
    assert HeadingAt(s[0..]).None? by { assert s[0..] == s; }
    forall i | 1 <= i < 4
      ensures HeadingAt(s[i..]).None?
    {
      assert s[i..][0] == s[i] != '=';
      assert Span(s[i..], IsMarker) == 0;
    }
    assert s[4..] == "=" && s[4..][1..] == [];
    assert Span(s[4..], IsMarker) == 1 by { SpanUnique(s[4..], IsMarker, 1); }
  }

  /** `"=a\nb=".split()` is `["=a", "b="]`. */
  lemma SplitOfExample(s: string)
    requires s == "=a\nb="
    ensures Split(s) == ["=a", "b="]
  {
    assert Span(s, IsWordChar) == 2 by { SpanUnique(s, IsWordChar, 2); }
    assert s[..2] == "=a" && s[2..] == "\nb=";
    var t := s[2..];
    assert Split(t) == Split(t[1..]);
    assert t[1..] == "b=";
    assert Span("b=", IsWordChar) == 2 by { SpanUnique("b=", IsWordChar, 2); }
    assert "b="[..2] == "b=" && "b="[2..] == [];
  }

  /** "=a b=" is one heading from end to end. */
  lemma OneHeadingIsDeleted()
    ensures StripHeadings("=a b=") == []
  {
    var s := "=a b=";
    assert Span(s, IsMarker) == 1;
    assert Span(s[1..], IsHeadingText) == 3;
    assert Span(s[4..], IsMarker) == 1;
    assert HeadingAt(s) == Some(5);
    StripHeadingsSkip(s, 5);
  }

  /** The first pass: the text is already clean, and the cut ends on the blank. */
  lemma CutAfterFirstWord(u: string, v: string)
    requires IsWord(u) && IsWord(v)
    requires forall k :: 0 <= k < |u| ==> u[k] != '=' && u[k] != '.'
    requires forall k :: 0 <= k < |v| ==> v[k] != '='
    ensures CleanSnippet(u + " " + v, |u| + 1) == u + " "
  {
    var t := u + " " + v;
    TwoWordsHaveNoHeading(u, v);
    TwoWordsAreNormal(u, v);
    CutEndsOnBlank(u, v);
    CleanSnippetSteps(t, |u| + 1);
  }

  lemma TwoWordsHaveNoHeading(u: string, v: string)
    requires forall k :: 0 <= k < |u| ==> u[k] != '='
    requires forall k :: 0 <= k < |v| ==> v[k] != '='
    ensures StripHeadings(u + " " + v) == u + " " + v
  {
    var t := u + " " + v;
    forall k | 0 <= k < |t|
      ensures t[k] != '='
    {
      if k < |u| {
        assert t[k] == u[k];
      } else if k > |u| {
        assert t[k] == v[k - |u| - 1];
      }
    }
    StripHeadingsNoMarker(t);
  }

  lemma TwoWordsAreNormal(u: string, v: string)
    requires IsWord(u) && IsWord(v)
    ensures Normalize(u + " " + v) == u + " " + v
  {
    var t := u + " " + v;
    var words := [u, v];
    assert words[1..] == [v];
    assert Join(words) == t;
    SplitJoin(words);
    NormalizeIsJoinOfWords(t);
  }

  lemma CutEndsOnBlank(u: string, v: string)
    requires |v| > 0
    requires forall k :: 0 <= k < |u| ==> u[k] != '.'
    ensures Truncate(u + " " + v, |u| + 1) == u + " "
  {
    var t := u + " " + v;
    var m := |u| + 1;
    var cut := t[..m];
    assert cut == u + " ";
    assert forall i :: 0 <= i < |u| ==> cut[i] == u[i];
    assert forall i :: m / 2 < i ==> !PeriodSpaceAt(cut, i);
    TruncateWithoutSentenceEnd(t, m);
  }

  /** With no `". "` in the second half of the cut, the cut is the result. */
  lemma TruncateWithoutSentenceEnd(t: string, maxChars: nat)
    requires |t| > maxChars
    requires forall i :: maxChars / 2 < i ==> !PeriodSpaceAt(t[..maxChars], i)
    ensures Truncate(t, maxChars) == t[..maxChars]
  {
  }

  /** The second pass: a word and a blank normalise to the word, which fits the budget. */
  lemma CleanFirstWordAndBlank(u: string)
    requires IsWord(u)
    requires forall k :: 0 <= k < |u| ==> u[k] != '='
    ensures CleanSnippet(u + " ", |u| + 1) == u
  {
    var s := u + " ";
    assert forall k :: 0 <= k < |s| ==> s[k] != '=' by {
      assert forall k :: 0 <= k < |u| ==> s[k] == u[k];
    }
    StripHeadingsNoMarker(s);
    SplitDropsTrailingSpace(u, ' ');
    assert [u][1..] == [];
    SplitJoin([u]);
    NormalizeIsJoinOfWords(s);
    assert Normalize(s) == u;
    CleanSnippetSteps(s, |u| + 1);
  }

  /** The three steps of the sanitiser, in order. */
  lemma CleanSnippetSteps(text: string, maxChars: nat)
    ensures CleanSnippet(text, maxChars) == Truncate(Normalize(StripHeadings(text)), maxChars)
  {
  }
}

=== FILE: text.dfy ===
/**
  Characters and words as Python's string methods see them: the whitespace
  class shared by `\s`, `str.strip` and `str.split`, ASCII lower-casing, and
  splitting a string into words and joining words back with single spaces.
*/
module Text {

  /** Whitespace according to `str.isspace` (and the regex class `\s`), restricted to ASCII. */
  predicate IsSpace(c: char)
  {
    c == ' ' || ('\t' <= c <= '\r') || ('\U{1C}' <= c <= '\U{1F}')
  }

  predicate IsWordChar(c: char)
  {
    !IsSpace(c)
  }

  /** `str.lower` on one character, restricted to ASCII letters. */
  function LowerChar(c: char): (d: char)
    ensures 'A' <= c <= 'Z' ==> 'a' <= d <= 'z' && d as int == c as int + 32
    ensures !('A' <= c <= 'Z') ==> d == c
  {
    if 'A' <= c <= 'Z' then (c as int + 32) as char else c
  }

  /** `str.lower` on a string. */
  function Lower(s: string): (r: string)
    ensures |r| == |s|
    ensures forall i :: 0 <= i < |s| ==> r[i] == LowerChar(s[i])
  {
    seq(|s|, i requires 0 <= i < |s| => LowerChar(s[i]))
  }

  /** Length of the longest prefix of `s` whose characters all satisfy `p`. */
  function Span(s: string, p: char -> bool): (n: nat)
    ensures n <= |s|
    ensures forall k :: 0 <= k < n ==> p(s[k])
    ensures n < |s| ==> !p(s[n])
  {
    if |s| == 0 || !p(s[0]) then 0 else 1 + Span(s[1..], p)
  }

  /** The two facts of `Span`'s contract pin its value down. */
  lemma SpanUnique(s: string, p: char -> bool, n: nat)
    requires n <= |s|
    requires forall k :: 0 <= k < n ==> p(s[k])
    requires n < |s| ==> !p(s[n])
    ensures Span(s, p) == n
  {
  }

  /** Appending text does not lengthen a span that already stops inside `a`, or stops at `b`'s first character. */
  lemma SpanAppend(a: string, b: string, p: char -> bool)
    requires Span(a, p) < |a| || |b| == 0 || !p(b[0])
    ensures Span(a + b, p) == Span(a, p)
  {
    var n := Span(a, p);
    forall k | 0 <= k < n
      ensures p((a + b)[k])
    {
      assert (a + b)[k] == a[k];
    }
    if n < |a| {
      assert (a + b)[n] == a[n];
    } else if |b| > 0 {
      assert (a + b)[n] == b[0];
    }
    SpanUnique(a + b, p, n);
  }

  /** `s` with its leading whitespace removed (`str.lstrip`). */
  function TrimLeft(s: string): (r: string)
  {
    s[Span(s, IsSpace)..]
  }

  /** `s` with its trailing whitespace removed (`str.rstrip`). */
  function TrimRight(s: string): (r: string)
    ensures r <= s
    ensures NoTrailingSpace(r)
    ensures forall k :: |r| <= k < |s| ==> IsSpace(s[k])
  {
    if |s| > 0 && IsSpace(s[|s| - 1]) then TrimRight(s[..|s| - 1]) else s
  }

  /**
    `str.strip` with no argument: the text between the leading and the
    trailing whitespace run, starting and ending with a non-space.
  */
  function Trim(s: string): (r: string)
    ensures Span(s, IsSpace) + |r| <= |s|
    ensures r == s[Span(s, IsSpace)..Span(s, IsSpace) + |r|]
    ensures forall k :: Span(s, IsSpace) + |r| <= k < |s| ==> IsSpace(s[k])
    ensures NoLeadingSpace(r) && NoTrailingSpace(r)
  {
    var a := Span(s, IsSpace);
    var u := s[a..];
    var r := TrimRight(u);
    StripBothEnds(s, a, u, r);
    r
  }

  /**
    A prefix `r` of `u == s[a..]`, followed in `u` only by whitespace, lies in
    place in `s`; it starts with `s[a]`, so with a non-space when `s[a]` is one.
  */
  lemma StripBothEnds(s: string, a: nat, u: string, r: string)
    requires a <= |s| && u == s[a..] && (a < |s| ==> !IsSpace(s[a]))
    requires r <= u && forall k :: |r| <= k < |u| ==> IsSpace(u[k])
    ensures a + |r| <= |s| && r == s[a..a + |r|]
    ensures forall k :: a + |r| <= k < |s| ==> IsSpace(s[k])
    ensures NoLeadingSpace(r)
  {
    assert forall k :: 0 <= k < |u| ==> u[k] == s[a + k];
    assert |r| > 0 ==> r[0] == u[0];
  }

  /** A word of `str.split()`: a non-empty run of non-whitespace characters. */
  predicate IsWord(w: string)
  {
    |w| > 0 && forall k :: 0 <= k < |w| ==> IsWordChar(w[k])
  }

  /** `str.split()` with no separator: the maximal non-whitespace runs, left to right. */
  function Split(s: string): (words: seq<string>)
    ensures forall i :: 0 <= i < |words| ==> IsWord(words[i])
    decreases |s|
  {
    if |s| == 0 then []
    else if IsSpace(s[0]) then Split(s[1..])
    else
      var w := Span(s, IsWordChar);
      [s[..w]] + Split(s[w..])
  }

  /** `" ".join(words)`. */
  function Join(words: seq<string>): (r: string)
  {
    if |words| == 0 then []
    else if |words| == 1 then words[0]
    else words[0] + [' '] + Join(words[1..])
  }

  predicate NoLeadingSpace(t: string)
  {
    |t| == 0 || !IsSpace(t[0])
  }

  predicate NoTrailingSpace(t: string)
  {
    |t| == 0 || !IsSpace(t[|t| - 1])
  }

  /** Every whitespace character is a plain space. */
  predicate OnlyBlanks(t: string)
  {
    forall i :: 0 <= i < |t| && IsSpace(t[i]) ==> t[i] == ' '
  }

  /** No two whitespace characters are adjacent. */
  predicate NoDoubleSpace(t: string)
  {
    forall i :: 0 < i < |t| ==> !(IsSpace(t[i - 1]) && IsSpace(t[i]))
  }

  /** The form `" ".join(s.split())` produces: words separated by exactly one blank. */
  predicate Normal(t: string)
  {
    NoLeadingSpace(t) && NoTrailingSpace(t) && OnlyBlanks(t) && NoDoubleSpace(t)
  }

  /** `str.split()` skips leading whitespace. */
  lemma {:induction false} SplitTrimLeft(s: string)
    ensures Split(TrimLeft(s)) == Split(s)
    decreases |s|
  {
    if |s| > 0 && IsSpace(s[0]) {
      assert Span(s, IsSpace) == 1 + Span(s[1..], IsSpace);
      assert TrimLeft(s) == TrimLeft(s[1..]);
      SplitTrimLeft(s[1..]);
    }
  }

  /** One trailing whitespace character does not change `str.split()`. */
  lemma {:induction false} SplitDropsTrailingSpace(s: string, c: char)
    requires IsSpace(c)
    ensures Split(s + [c]) == Split(s)
    decreases |s|
  {
    if |s| == 0 {
      assert Split([c]) == Split([c][1..]);
    } else if IsSpace(s[0]) {
      assert (s + [c])[1..] == s[1..] + [c];
      SplitDropsTrailingSpace(s[1..], c);
    } else {
      var w := Span(s, IsWordChar);
      SpanAppend(s, [c], IsWordChar);
      assert (s + [c])[..w] == s[..w];
      assert (s + [c])[w..] == s[w..] + [c];
      SplitDropsTrailingSpace(s[w..], c);
    }
  }

  /** `str.split()` ignores trailing whitespace. */
  lemma {:induction false} SplitTrimRight(s: string)
    ensures Split(TrimRight(s)) == Split(s)
    decreases |s|
  {
    if |s| > 0 && IsSpace(s[|s| - 1]) {
      var u := s[..|s| - 1];
      assert s == u + [s[|s| - 1]];
      SplitDropsTrailingSpace(u, s[|s| - 1]);
      SplitTrimRight(u);
    }
  }

  /** `str.split()` ignores the whitespace `str.strip()` removes. */
  lemma SplitTrim(s: string)
    ensures Split(Trim(s)) == Split(s)
  {
    SplitTrimRight(TrimLeft(s));
    SplitTrimLeft(s);
  }

  /** A whitespace-only string has no words. */
  lemma {:induction false} SplitAllSpace(s: string)
    requires forall k :: 0 <= k < |s| ==> IsSpace(s[k])
    ensures Split(s) == []
    decreases |s|
  {
    if |s| > 0 {
      SplitAllSpace(s[1..]);
    }
  }

  /** Lower-casing keeps whitespace where it was. */
  lemma LowerKeepsSpaces(s: string)
    ensures forall k :: 0 <= k < |s| ==> (IsSpace(Lower(s)[k]) <==> IsSpace(s[k]))
  {
  }

  /** Round trip: splitting words joined by single blanks gives the words back. */
  lemma {:induction false} SplitJoin(words: seq<string>)
    requires forall i :: 0 <= i < |words| ==> IsWord(words[i])
    ensures Split(Join(words)) == words
  {
    if |words| == 1 {
      var w := words[0];
      SpanUnique(w, IsWordChar, |w|);
      assert !IsSpace(w[0]);
      assert w[..|w|] == w && w[|w|..] == [];
      assert Split(w) == [w[..|w|]] + Split(w[|w|..]);
      assert Join(words) == w;
    } else if |words| > 1 {
      var w := words[0];
      var rest := Join(words[1..]);
      var t := w + [' '] + rest;
      assert Join(words) == t;
      SpanUnique(t, IsWordChar, |w|);
      assert t[0] == w[0];
      assert t[..|w|] == w;
      assert t[|w|..] == [' '] + rest;
      assert ([' '] + rest)[1..] == rest;
      SplitJoin(words[1..]);
      assert Split(t) == [w] + words[1..];
    }
  }

  /** What follows a blank of a normal string is normal and not empty. */
  lemma NormalAfterBlank(t: string, w: nat)
    requires Normal(t) && w < |t| && IsSpace(t[w])
    ensures t[w] == ' ' && w + 1 < |t| && !IsSpace(t[w + 1])
    ensures Normal(t[w + 1..])
  {
    var rest := t[w + 1..];
    assert rest[0] == t[w + 1];
    forall i | 0 < i < |rest|
      ensures !(IsSpace(rest[i - 1]) && IsSpace(rest[i]))
    {
      assert rest[i - 1] == t[w + i] && rest[i] == t[w + 1 + i];
    }
    forall i | 0 <= i < |rest| && IsSpace(rest[i])
      ensures rest[i] == ' '
    {
      assert rest[i] == t[w + 1 + i];
    }
  }

  /** A string that starts with a word character splits off its first word. */
  lemma SplitAtWord(t: string)
    requires |t| > 0 && !IsSpace(t[0])
    ensures Split(t) == [t[..Span(t, IsWordChar)]] + Split(t[Span(t, IsWordChar)..])
  {
  }

  /** A blank is skipped by the split. */
  lemma SplitAtBlank(t: string, w: nat)
    requires w < |t| && IsSpace(t[w])
    ensures Split(t[w..]) == Split(t[w + 1..])
  {
    assert t[w..][1..] == t[w + 1..];
  }

  lemma Recompose(t: string, w: nat)
    requires w < |t|
    ensures t == t[..w] + [t[w]] + t[w + 1..]
  {
  }

  /** Joining a word in front of at least one more puts a blank between. */
  lemma JoinCons(x: string, ws: seq<string>)
    requires |ws| > 0
    ensures Join([x] + ws) == x + [' '] + Join(ws)
  {
    assert ([x] + ws)[1..] == ws;
  }

  /** Round trip: a normal string is exactly its words joined by single blanks. */
  lemma {:induction false} JoinSplitNormal(t: string)
    requires Normal(t)
    ensures Join(Split(t)) == t
    decreases |t|
  {
    if |t| > 0 {
      var w := Span(t, IsWordChar);
      SplitAtWord(t);
      if w == |t| {
        assert t[w..] == [] && t[..w] == t;
      } else {
        NormalAfterBlank(t, w);
        var rest := t[w + 1..];
        SplitAtBlank(t, w);
        JoinSplitNormal(rest);
        var ws := Split(rest);
        assert |ws| > 0;
        JoinCons(t[..w], ws);
        Recompose(t, w);
      }
    }
  }
}
